=== FILE: README.md ===
# A verified model of the `.gitconfig` reader and writer

The application edits the user's global `.gitconfig` through a graphical front
end. Its core is a format-preserving parser and serializer in `app/main.py`:

- `read_gitconfig` turns the file text into one entry per physical line. Each
  entry is `empty`, `comment`, `section`, `config` or `unknown`.
- `write_gitconfig` turns a list of entries back into text.

Headers and key/value lines may be "disabled", which means commented out with a
leading `#`. The front end toggles them on and off. This project models the two
loops as pure Dafny functions, with the file I/O taken out, and proves what
they promise.

## Modules

- **`Text`** (`text.dfy`) models the Python string primitives the loops use:
  - `str.isspace`, one whitespace class used for `strip`, `\s` and `\S`;
  - `str.strip` and `str.rstrip('"')`;
  - `str.split('\n')` and `'\n'.join`, with the proof that they undo each other.
- **`Patterns`** (`patterns.dfy`) models the four regular expressions of the
  parser and the splitting of header text:
  - the header pattern `\[([^\]]+)\]`;
  - the key/value pattern `(\S+)\s*=\s*(.*)$`, whose greedy key backtracks
    (see `FindKeyEnd`);
  - the two patterns of the pure-comment test at line 149, `#\s*\[` and
    `#\s*\S+\s*=`;
  - the splitting of a header's bracket text at its first double quote.
- **`Document`** (`entry.dfy`) holds the entry datatype and the running
  section state `(current_section, current_subsection)`.
- **`Parser`** (`parser.dfy`) models the parse loop:
  - one line is `ParseLine`;
  - the loop is `ParseFrom` and `Parse`;
  - the facts about section-state propagation are proved here.
- **`Serializer`** (`serializer.dfy`) models the render loop. Entries are dict
  records whose fields may be missing (`RenderRecord`). The records the parser
  builds are `ToRecord` and `RenderEntry`.
- **`RoundTrip`** (`roundtrip.dfy`) proves what a render followed by a re-read
  keeps. It has three parts:
  - which rendered lines re-read as the same directive;
  - which entries the parser can produce (`WellFormed`);
  - document-level results: the verbatim round trip, idempotence and the
    render fixpoint.
- **`Cases`** (`cases.dfy`) works through concrete lines:
  - `a=b=c` gives key `a=b`;
  - `flag =` has an empty value;
  - `# key = value` is disabled;
  - `# just a note` is a comment;
  - `# [oops` is unknown;
  - `[remote "origin"]` has a subsection;
  - three header shapes change on a render and re-read.

## How the model follows the code

- **Whitespace.** `IsSpace` is the set of characters for which Python's
  `str.isspace()` holds. The same set is `\s` for `re` on `str` patterns, so one
  predicate serves `strip`, `\s` and `\S`.
- **Single lines.** Every line the loop sees comes from `split('\n')` and holds
  no newline. `ParseLine` requires this. On such a line, `(.*)$` takes the rest
  of the line.
- **The greedy key.** The key is the longest prefix of the leading
  non-whitespace run that is followed by optional whitespace and `=`. For
  example, `a=b=c` gives key `a=b` and value `c` (`Cases.GreedyKey`): the
  regular expression backtracks inside the run until `\s*=` can follow.
- **Comment versus directive.** A commented-out line counts as a directive, not
  a comment, when the text after `#` and any whitespace starts with `[`. No
  closing bracket is needed. So `# [oops` is no comment. It matches neither
  directive pattern, and it is kept as `unknown` (`Cases.UnclosedHeader`).
- **Three header shapes do not survive a render and re-read**, so idempotence
  is proved under the `Stable` precondition:
  - **Blank name.** `[ ]` has a blank name. It renders as `[]`, which the
    header pattern rejects (`Cases.BlankHeader`, `Cases.BlankHeaderRendered`,
    `Cases.EmptyBrackets`).
  - **Empty subsection.** `[a ""]` renders as `[a]` (`Cases.EmptySubsection`,
    `Cases.EmptySubsectionRendered`). Equivalence therefore compares
    subsections up to `NormSub`, which drops an empty subsection.
  - **Trailing quote.** `[a "b" "]` has subsection `b"`. It renders as
    `[a "b""]`, which re-reads with subsection `b` (`Cases.TrailingQuote`,
    `Cases.TrailingQuoteRendered`, `Cases.TrailingQuoteReread`).
- **Rendering is a fixpoint anyway.** Re-rendering a re-read document
  reproduces the first rendering exactly (`RoundTrip.RenderFixpoint`). Of the
  three shapes only the trailing quote breaks this: `[ ]` renders as `[]`,
  an unknown line that renders as itself, and `[a ""]` renders as `[a]`, a
  header that renders as itself. The lemma still requires `Stable` headers,
  because its proof goes through `RoundTrip.Idempotent`.

## Model

| member | source | states |
|---|---|---|
| Text.Strip | app/main.py:133 | `line.strip()` leaves no whitespace at either end, and it is empty exactly when the line is all whitespace |
| Text.StripSlice | app/main.py:133 | `line.strip()` is a contiguous slice of the line with only whitespace before and after it |
| Text.Split | app/main.py:128 | `content.split('\n')` yields one more piece than there are newlines, none holding a newline |
| Text.JoinSplit | app/main.py:128 | joining the split pieces with `'\n'` gives the text back |
| Text.SplitJoin | app/main.py:269 | splitting the `'\n'`-join of newline-free lines gives those lines back |
| Text.RStripChar | app/main.py:168 | `rstrip('"')` removes exactly the trailing run of quotes: the result is a prefix, only quotes were cut, and it does not end in a quote |
| Patterns.HeaderContent | app/main.py:162 | the header pattern matches exactly when the text starts with `[`, the next character is no `]`, and a `]` follows; group 1 is the non-empty, `]`-free text between them |
| Patterns.HeaderContentOf | app/main.py:162 | `[c]` followed by anything is matched with group 1 equal to `c` when `c` is non-empty and `]`-free |
| Patterns.SplitHeader | app/main.py:164-171 | quote-free bracket text gives the whole text, stripped, as the name and no subsection (line 170); otherwise the name is stripped and quote-free, a subsection exists exactly when the bracket text holds a quote, and is stripped; both are drawn from the bracket text |
| Patterns.SplitHeaderAt | app/main.py:164-168 | with its first quote at a given position, the bracket text splits there: the name is the stripped text before it, the subsection the stripped text after it with trailing quotes removed |
| Patterns.SearchKeyEnd | app/main.py:184 | backtracking from a candidate key end finds the largest key end at or below it, or proves none exists |
| Patterns.FindKeyEnd | app/main.py:184 | group 1 of `(\S+)\s*=` ends at the largest position that works, and the pattern fails exactly when no position works |
| Patterns.KeyEndIs | app/main.py:184 | a key end that works, with no longer one that works, is the one the pattern picks |
| Patterns.MatchKeyValue | app/main.py:184-187 | the key/value pattern matches exactly when some key end works; the key is the longest such prefix, and the value is the stripped text after the `=` |
| Parser.ParseDirective | app/main.py:160-206 | a directive text becomes a header exactly when the header pattern matches, a key/value entry exactly when only the key/value pattern matches, and unknown otherwise; a header's name and subsection are the split of the bracket text, a key/value entry's key and value are the two groups of the match; a header replaces the state, and a key/value entry carries it |
| Parser.ParseLine | app/main.py:132-206 | one iteration: the entry is empty exactly when the line is blank, a comment exactly when the stripped line is a pure comment, disabled exactly when the stripped line starts with `#`; a header's name and subsection are the split of the bracket text its directive text matched; a key/value entry's directive text matches no header, its key and value are the groups of the key/value match, and it carries the current state; a line that is neither blank nor a pure comment is a header exactly when its directive text matches the header pattern, a key/value entry exactly when only the key/value pattern matches, and unknown otherwise |
| Parser.ParseFrom | app/main.py:132-206 | the loop yields one entry per line, numbered consecutively, each keeping its raw line |
| Parser.ParseFromClassifies | app/main.py:136-206 | in the loop, an entry is empty exactly when its line is blank, a comment exactly when its line is a pure comment, and otherwise a header exactly when the line's directive text matches the header pattern and a key/value entry exactly when only the key/value pattern matches, whatever the state |
| Parser.Parse | app/main.py:127-206 | parsing never fails; it yields one entry per newline plus one, numbered from 1, and the raw texts joined with `'\n'` are the input |
| Parser.ParseClassifies | app/main.py:136-206 | entry `i` of a document is empty exactly when line `i` is blank, a comment exactly when line `i` is a pure comment, and otherwise a header or key/value entry exactly when the directive text of line `i` matches the header pattern or only the key/value pattern |
| Parser.ConfigCarriesState | app/main.py:163-198 | each key/value entry carries the state left by all entries before it |
| Parser.ParseFromAt | app/main.py:127-206 | entry `i` of the loop is exactly what one iteration makes of line `i` under the state left by the entries before it |
| Parser.ParseAt | app/main.py:127-206 | for a whole document, entry `i` is exactly what one iteration makes of line `i`, numbered `i + 1`, under the state left by the entries above it; so every field of every entry is the one `ParseLine` states for its line |
| Parser.StateAfterLastHeader | app/main.py:166-171 | that state is the name and subsection of the last header before it, active or disabled |
| Parser.StateAfterNoHeader | app/main.py:166-171 | entries without a header leave the state unchanged |
| Parser.ConfigUnderNearestHeader | app/main.py:163-193 | a key/value entry has the section and subsection of the nearest header above it, whatever lies in between |
| Parser.ConfigBeforeAnyHeader | app/main.py:129-193 | a key/value entry above every header has no section and no subsection |
| Serializer.Render | app/main.py:230-269 | for at least one record, split at its newlines, the output is exactly one line per record, in order, as long as no rendered line holds a newline |
| Serializer.RenderRecordAsEntry | app/main.py:231-267 | a header or key/value record renders exactly as the entry built from its fields (missing name, key or value read as empty text, a missing flag as false); an `empty` record renders as a blank line; a record of any other type, or of none, renders as its raw text |
| RoundTrip.KeyValueBodyMatches | app/main.py:184-187 | the canonical `key = value` text is matched by the key/value pattern with exactly that key and value |
| RoundTrip.KeyValueBodyHeader | app/main.py:162 | the canonical `key = value` text is taken for a header exactly when `HeaderLike` holds |
| RoundTrip.HeaderTextMatches | app/main.py:239-242 | a rendered header is matched by the header pattern with its inner text as group 1 |
| RoundTrip.SplitHeaderRendered | app/main.py:165-171 | the inner text of a rendered header splits back into the name and the subsection, up to an empty subsection |
| RoundTrip.ReparseSection | app/main.py:239-247 | a rendered header, active or disabled, re-reads as a header with the same name, the same flag and the same subsection up to an empty one |
| RoundTrip.ReparseHeaderText | app/main.py:239-247 | a header written from a stable name and subsection, active or behind `# `, is a single line that re-reads as a header with that name, that subsection up to an empty one, and that flag |
| RoundTrip.ReparseConfig | app/main.py:249-260 | a rendered key/value entry re-reads as a key/value entry with the same key, value and flag |
| RoundTrip.ReparseConfigRecord | app/main.py:249-260 | a key/value record from the front end whose key and value could have been parsed renders as one line that re-reads as a key/value entry with that key, value and flag |
| RoundTrip.ReparseSectionRecord | app/main.py:239-247 | a header record from the front end whose name and subsection make a well-formed, stable header renders as one line that re-reads as a header with that name and flag and the same subsection up to an empty one |
| RoundTrip.ToggleConfig | app/main.py:255-259 | flipping the flag of a key/value entry and rendering it re-reads as the same key and value with the flag flipped |
| RoundTrip.ToggleSection | app/main.py:244-247 | flipping the flag of a header and rendering it re-reads as the same header with the flag flipped |
| RoundTrip.ConfigNotHeaderLike | app/main.py:162-187 | when the header pattern rejects a directive text and the key/value pattern accepts it, the key and value it yields never render as text the header pattern would accept |
| RoundTrip.ParsedWellFormed | app/main.py:133-206 | every parsed entry is well-formed: stripped single-line fields, and a non-empty whitespace-free key that does not start with `#` when active |
| RoundTrip.UnknownAnyState | app/main.py:201-206 | whether a line is unknown does not depend on the section state |
| RoundTrip.ReparseLine | app/main.py:132-264 | re-reading a rendered line yields an equivalent entry, and the normalised state after it |
| RoundTrip.ReparseFrom | app/main.py:132-206 | re-reading the rendered lines of the loop's output yields equivalent entries, one by one |
| RoundTrip.RenderedSingleLine | app/main.py:230-260 | a well-formed entry renders as a single line |
| RoundTrip.RenderParsedLines | app/main.py:261-269 | rendering a parsed document gives one line per input line: blank for a blank line, and the input line itself for a comment or an unknown line |
| RoundTrip.VerbatimRoundTrip | app/main.py:230-269 | a text made only of comments, unknown lines and empty lines is written back exactly as read |
| RoundTrip.Idempotent | app/main.py:128-269 | re-reading a rendered document gives the same number of entries, each equivalent to its original |
| RoundTrip.EquivalentRendersSame | app/main.py:239-259 | equivalent entries render to the same line |
| RoundTrip.RenderFixpoint | app/main.py:230-269 | rendering the re-read document reproduces the first rendering exactly |
| Cases.GreedyKey | app/main.py:184-187 | `a=b=c` has key `a=b` and value `c` |
| Cases.EmptyValue | app/main.py:184-187 | `flag =` has key `flag` and an empty value |
| Cases.CommentedOutKeyValue | app/main.py:145-198 | `# key = value` is a disabled key/value entry with key `key` and value `value` |
| Cases.PlainComment | app/main.py:149-155 | `# just a note` is a comment |
| Cases.UnclosedHeader | app/main.py:149-206 | `# [oops` is no comment and no header, so it is unknown |
| Cases.QuotedSubsection | app/main.py:162-171 | `[remote "origin"]` is section `remote` with subsection `origin` |
| Cases.BlankHeader | app/main.py:162-171 | `[ ]` is a header with a blank name and no subsection |
| Cases.EmptyBrackets | app/main.py:162-206 | `[]` matches no pattern and is unknown |
| Cases.EmptySubsection | app/main.py:165-168 | `[a ""]` has an empty subsection |
| Cases.TrailingQuote | app/main.py:165-168 | `[a "b" "]` has subsection `b"`: only the final quote is dropped |
| Cases.TrailingQuoteReread | app/main.py:165-168 | `[a "b""]`, its rendering, re-reads with subsection `b` |

## Left out

- File I/O and the result dictionaries are not modelled. This covers the existence check, reading, writing, `makedirs` and the conversion of exceptions into `success: false` (app/main.py:114-125, 208-219, 227-229, 271-279).
- `get_gitconfig_path`, `get_resource_path` and the `Api` wrapper are not modelled. They are environment lookups and thin delegation.
- The portal URL lookup, the development server, `main` and window creation are not modelled. They are process and UI management.
- The build scripts, the macOS launcher and the front-end bootstrap are not modelled. They are outside the parser and serializer.
- Serializer.RenderRecord: a record field that is present but holds `None` is modelled as missing. This is exact for `type`, `subsection` and `disabled`, where `None` acts like the missing field. It is not exact for `section`, `key` and `value`: there Python writes the text `None`, not `""`.
- Serializer.RenderRecord: it is total, so it drops one error path of `write_gitconfig`. A record whose `raw` is `None` and whose type is `comment`, `unknown` or anything unrecognised adds `None` to the line list (lines 261-267). The `'\n'.join` at line 269 then raises `TypeError`, and the function returns `success: False` without writing the file (lines 278-279). Field values of other wrong types are not modelled either.
- Serializer.RenderRecord: the `comment`, `unknown` and fallback branches (lines 261-267) are one branch in the model, since all three write `raw`.
- RoundTrip.Idempotent: holds only for documents whose headers are `Stable`. The three header shapes that break it are shown in `Cases`.
- RoundTrip.RenderFixpoint: requires `Stable` headers, because its proof goes through `RoundTrip.Idempotent`. Only a subsection ending in `"` breaks the fixpoint; blank names and empty subsections reach it after one render, and the model does not prove that case.
- RoundTrip.ReparseLine: requires a `Stable` entry. `RoundTrip.ReparseFrom` and `RoundTrip.ReparseSection` carry the same requirement.
- RoundTrip.ToggleSection: requires a `Stable` header, for the same reason.
- RoundTrip.ToggleConfig: requires a key that does not start with `#`. Such a key arises only from a disabled line like `# #k = v`. Enabling that line renders `    #k = v`, which reads back as the disabled key `k`.
- Text.Strip: characters are Unicode scalar values. Python strings that hold lone surrogates have no counterpart.

=== FILE: cases.dfy ===
/** Concrete lines and what the loop makes of them: the key/value pattern's
    greedy key, empty values, commented-out directives, comments, lines kept
    as unknown, quoted subsections, and the three header shapes that do not
    survive a render and re-read unchanged. */
module Cases {
  import opened Optional
  import opened Text
  import opened Document
  import opened Patterns
  import opened Parser
  import opened Serializer
  import opened RoundTrip

  /** A directive text without a leading `[` that the key/value pattern
      matches is read as the groups of that match. */
  lemma KeyValueDirective(d: string, disabled: bool, line: string, n: nat, st: State)
    requires '\n' !in d && d != [] && d[0] != '[' && FindKeyEnd(d).Some?
    ensures MatchKeyValue(d).Some?
    ensures var e := ParseDirective(d, disabled, line, n, st).0;
      && e.Config? && e.disabled == disabled
      && e.key == MatchKeyValue(d).value.0 && e.value == MatchKeyValue(d).value.1
  {
    MatchKeyValueGroups(d);
    DirectiveKeyValue(d, disabled, line, n, st);
  }

  lemma GreedyKeyEnd()
    ensures FindKeyEnd("a=b=c") == Some(3)
  {
    var s := "a=b=c";
    PunctuationIsNotSpace();
    assert !IsSpace('a') && !IsSpace('b') && !IsSpace('c');
    SkipSpaceAt(s, 3, 3);
    SkipSpaceAt(s, 4, 4);
    SkipSpaceAt(s, 5, 5);
    KeyEndIs(s, 3);
  }

  /** `a=b=c` has key `a=b` and value `c`: the key is the longest one. */
  lemma GreedyKey()
    ensures var e := ParseLine("a=b=c", 1, Initial).0;
      e.Config? && e.key == "a=b" && e.value == "c"
  {
    var s := "a=b=c";
    PunctuationIsNotSpace();
    assert !IsSpace('a') && !IsSpace('c');
    GreedyKeyEnd();
    SkipSpaceAt(s, 3, 3);
    ActiveLine(s, 1, Initial);
    KeyValueDirective(s, false, s, 1, Initial);
    MatchKeyValueGroups(s);
    assert s[..3] == "a=b" && s[4..] == "c";
    StripStripped("c");
  }

  lemma EmptyValueKeyEnd()
    ensures FindKeyEnd("flag =") == Some(4) && SkipSpace("flag =", 4) == 5
    ensures "flag ="[..4] == "flag" && "flag ="[6..] == ""
  {
    var s := "flag =";
    PunctuationIsNotSpace();
    assert !IsSpace('f') && !IsSpace('l') && !IsSpace('a') && !IsSpace('g');
    assert SpaceBetween(s, 4, 5);
    SkipSpaceAt(s, 4, 5);
    KeyEndIs(s, 4);
  }

  /** `flag =` has key `flag` and an empty value. */
  lemma EmptyValue()
    ensures var e := ParseLine("flag =", 1, Initial).0;
      e.Config? && e.key == "flag" && e.value == ""
  {
    var s := "flag =";
    PunctuationIsNotSpace();
    assert !IsSpace('f');
    EmptyValueKeyEnd();
    ActiveLine(s, 1, Initial);
    KeyValueDirective(s, false, s, 1, Initial);
    MatchKeyValueGroups(s);
    StripStripped("");
  }

  lemma SpacedKeyEnd()
    ensures FindKeyEnd("key = value") == Some(3) && SkipSpace("key = value", 3) == 4
    ensures "key = value"[..3] == "key" && "key = value"[5..] == " value"
  {
    var b := "key = value";
    PunctuationIsNotSpace();
    assert !IsSpace('k') && !IsSpace('e') && !IsSpace('y');
    assert SpaceBetween(b, 3, 4);
    SkipSpaceAt(b, 3, 4);
    KeyEndIs(b, 3);
  }

  lemma SpacedValue()
    ensures Strip(" value") == "value"
  {
    PunctuationIsNotSpace();
    assert !IsSpace('v') && !IsSpace('e');
    StripPadded(" ", "value", "");
    assert " " + "value" + "" == " value";
  }

  lemma CommentedOutText()
    ensures "# " + "key = value" == "# key = value"
  {
  }

  /** `# key = value` is the key/value line `key = value`, commented out. */
  lemma CommentedOutKeyValue()
    ensures var e := ParseLine("# key = value", 1, Initial).0;
      e.Config? && e.disabled && e.key == "key" && e.value == "value"
  {
    var b := "key = value";
    PunctuationIsNotSpace();
    assert !IsSpace('k') && !IsSpace('e');
    SpacedKeyEnd();
    SpacedValue();
    DisabledLine(b, 1, Initial);
    CommentedOutText();
    KeyValueDirective(b, true, "# key = value", 1, Initial);
    MatchKeyValueGroups(b);
  }

  /** A directive text without `=` and either without `]` or too short for
      a header matches neither pattern. */
  lemma UnknownDirective(d: string, disabled: bool, line: string, n: nat, st: State)
    requires '\n' !in d && (']' !in d || |d| < 3) && '=' !in d
    ensures ParseDirective(d, disabled, line, n, st).0.Unknown?
  {
    assert |d| >= 2 ==> forall c :: c in d[2..] ==> c in d;
    assert forall k: nat :: !KeyEndsAt(d, k);
  }

  lemma OopsText()
    ensures Strip(" [oops") == "[oops" && SkipSpace("# [oops", 1) == 2
  {
    PunctuationIsNotSpace();
    assert !IsSpace('s');
    StripPadded(" ", "[oops", "");
    assert " " + "[oops" + "" == " [oops";
    SkipSpaceAt("# [oops", 1, 2);
  }

  lemma OopsDirective()
    ensures Strip("# [oops") == "# [oops" && !IsPureComment("# [oops")
    ensures Directive("# [oops") == "[oops"
    ensures '\n' !in "[oops" && ']' !in "[oops" && '=' !in "[oops"
  {
    var s := "# [oops";
    PunctuationIsNotSpace();
    assert !IsSpace('s');
    StripStripped(s);
    OopsText();
    assert OpensHeader(s);
    assert s[1..] == " [oops";
  }

  /** `# [oops` looks like a commented-out header, so it is no comment, but
      it is no header either: it is kept as an unknown line. */
  lemma UnclosedHeader()
    ensures ParseLine("# [oops", 1, Initial).0.Unknown?
  {
    OopsDirective();
    ParseLineDirective("# [oops", 1, Initial);
    UnknownDirective("[oops", true, "# [oops", 1, Initial);
  }

  /** `# just a note` is a comment: after the `#` comes neither `[` nor a
      key followed by `=`. */
  lemma PlainComment()
    ensures ParseLine("# just a note", 1, Initial).0.Comment?
  {
    var s := "# just a note";
    PunctuationIsNotSpace();
    assert !IsSpace('j') && !IsSpace('e');
    StripStripped(s);
    SkipSpaceAt(s, 1, 2);
    assert !OpensHeader(s);
    assert forall k: nat :: !KeyEndsAt(s[2..], k);
  }

  lemma RemoteOriginText()
    ensures HeaderText("remote", Some("origin")) == "[remote \"origin\"]"
    ensures '"' !in "remote" && ']' !in "remote" && '\n' !in "remote"
    ensures '"' !in "origin" && ']' !in "origin" && '\n' !in "origin"
  {
  }

  lemma RemoteOriginStripped()
    ensures Stripped("remote") && Stripped("origin")
  {
    assert !IsSpace('r') && !IsSpace('e') && !IsSpace('o') && !IsSpace('n');
  }

  /** `[remote "origin"]` is section `remote` with subsection `origin`. */
  lemma QuotedSubsection()
    ensures ParseLine("[remote \"origin\"]", 1, Initial).0
      == Section(1, "remote", Some("origin"), false, "[remote \"origin\"]")
  {
    RemoteOriginText();
    RemoteOriginStripped();
    HeaderTextShape("remote", Some("origin"));
    ParseActiveHeader("[remote \"origin\"]", HeaderInner("remote", Some("origin")), 1, Initial);
    SplitHeaderRendered("remote", Some("origin"));
  }

  /** An active header line is read from its bracket text. */
  lemma ActiveHeader(c: string, n: nat, st: State)
    requires c != [] && ']' !in c && '\n' !in c
    ensures ParseLine("[" + c + "]", n, st).0
      == Section(n, SplitHeader(c).0, SplitHeader(c).1, false, "[" + c + "]")
  {
    var h := "[" + c + "]";
    PunctuationIsNotSpace();
    HeaderContentOf(c, "");
    assert h + "" == h;
    assert h[|h| - 1] == ']';
    assert forall i :: 0 <= i < |c| ==> h[i + 1] == c[i];
    ParseActiveHeader(h, c, n, st);
  }

  lemma BlankHeaderText()
    ensures "[" + " " + "]" == "[ ]" && SplitHeader(" ") == ("", None)
    ensures ']' !in " " && '\n' !in " "
  {
    PunctuationIsNotSpace();
    assert AllSpace(" ");
  }

  /** `[ ]` is a header with a blank name and no subsection. */
  lemma BlankHeader()
    ensures ParseLine("[ ]", 1, Initial).0 == Section(1, "", None, false, "[ ]")
  {
    BlankHeaderText();
    ActiveHeader(" ", 1, Initial);
  }

  /** A header with a blank name and no subsection renders as `[]`. */
  lemma BlankHeaderRendered()
    ensures RenderEntry(Section(1, "", None, false, "[ ]")) == "[]"
  {
    assert HeaderText("", None) == "[]";
  }

  /** `[]` is no header, since the brackets must hold at least one
      character: the line is unknown. */
  lemma EmptyBrackets()
    ensures ParseLine("[]", 1, Initial).0.Unknown?
  {
    PunctuationIsNotSpace();
    ActiveLine("[]", 1, Initial);
    UnknownDirective("[]", false, "[]", 1, Initial);
  }

  /** Bracket text `a "` followed by anything splits into name `a` and the
      rest, quotes trimmed at the end and stripped. */
  lemma QuotedAfterA(rest: string)
    ensures SplitHeader("a \"" + rest) == ("a", Some(Strip(RStripChar(rest, '"'))))
  {
    var c := "a \"" + rest;
    assert c[2] == '"' && c[..2] == "a " && c[3..] == rest;
    SplitHeaderAt(c, 2);
    PunctuationIsNotSpace();
    assert !IsSpace('a');
    StripPadded("", "a", " ");
    assert "" + "a" + " " == "a ";
  }

  lemma EmptySubsectionConcat()
    ensures "a \"" + "\"" == "a \"\""
    ensures RStripChar("\"", '"') == ""
  {
  }

  lemma EmptySubsectionText()
    ensures "[" + "a \"\"" + "]" == "[a \"\"]"
    ensures SplitHeader("a \"\"") == ("a", Some(""))
    ensures ']' !in "a \"\"" && '\n' !in "a \"\""
  {
    QuotedAfterA("\"");
    EmptySubsectionConcat();
  }

  /** `[a ""]` is section `a` with an empty subsection ... */
  lemma EmptySubsection()
    ensures ParseLine("[a \"\"]", 1, Initial).0 == Section(1, "a", Some(""), false, "[a \"\"]")
  {
    EmptySubsectionText();
    ActiveHeader("a \"\"", 1, Initial);
  }

  /** ... which renders as `[a]`, without a subsection. */
  lemma EmptySubsectionRendered()
    ensures RenderEntry(Section(1, "a", Some(""), false, "[a \"\"]")) == "[a]"
  {
    assert HeaderText("a", Some("")) == "[a]";
  }

  lemma TrailingQuoteText()
    ensures "[" + "a \"b\" \"" + "]" == "[a \"b\" \"]"
    ensures "a \"" + "b\" \"" == "a \"b\" \""
    ensures ']' !in "a \"b\" \"" && '\n' !in "a \"b\" \""
  {
  }

  lemma TrailingQuoteTrim()
    ensures RStripChar("b\" \"", '"') == "b\" "
  {
  }

  lemma RereadTrim()
    ensures RStripChar("b\"\"", '"') == "b"
  {
    assert RStripChar("b\"\"", '"') == RStripChar("b\"", '"');
  }

  lemma TrailingQuoteSplit()
    ensures SplitHeader("a \"b\" \"") == ("a", Some("b\""))
  {
    QuotedAfterA("b\" \"");
    TrailingQuoteText();
    TrailingQuoteTrim();
    PunctuationIsNotSpace();
    StripPadded("", "b\"", " ");
    assert "" + "b\"" + " " == "b\" ";
  }

  /** `[a "b" "]` is section `a` with subsection `b"`: only the last quote
      is dropped ... */
  lemma TrailingQuote()
    ensures ParseLine("[a \"b\" \"]", 1, Initial).0 == Section(1, "a", Some("b\""), false, "[a \"b\" \"]")
  {
    TrailingQuoteText();
    TrailingQuoteSplit();
    ActiveHeader("a \"b\" \"", 1, Initial);
  }

  /** ... it renders as `[a "b""]` ... */
  lemma TrailingQuoteRendered()
    ensures RenderEntry(Section(1, "a", Some("b\""), false, "[a \"b\" \"]")) == "[a \"b\"\"]"
  {
    assert HeaderText("a", Some("b\"")) == "[a \"b\"\"]";
  }

  lemma RereadText()
    ensures "[" + "a \"b\"\"" + "]" == "[a \"b\"\"]"
    ensures "a \"" + "b\"\"" == "a \"b\"\""
    ensures ']' !in "a \"b\"\"" && '\n' !in "a \"b\"\""
  {
  }

  lemma RereadSplit()
    ensures SplitHeader("a \"b\"\"") == ("a", Some("b"))
  {
    QuotedAfterA("b\"\"");
    RereadText();
    RereadTrim();
    StripStripped("b");
  }

  /** ... and there the re-read drops both trailing quotes, so the
      subsection becomes `b`. */
  lemma TrailingQuoteReread()
    ensures ParseLine("[a \"b\"\"]", 1, Initial).0 == Section(1, "a", Some("b"), false, "[a \"b\"\"]")
  {
    RereadText();
    RereadSplit();
    ActiveHeader("a \"b\"\"", 1, Initial);
  }
}

=== FILE: entry.dfy ===
/** The document model: one tagged entry per physical line of the file. */
module Document {
  import opened Optional

  /** What the parser makes of one line. `line` is the 1-based line number
      and `raw` the line exactly as read. A `Section` or `Config` entry with
      `disabled` set is a directive that was commented out with `#`. */
  datatype Entry =
    | Empty(line: nat, raw: string)
    | Comment(line: nat, raw: string)
    | Section(line: nat, name: string, sub: Option<string>, disabled: bool, raw: string)
    | Config(line: nat, section: Option<string>, sub: Option<string>,
             key: string, value: string, disabled: bool, raw: string)
    | Unknown(line: nat, raw: string)

  /** The running `(current_section, current_subsection)` pair. */
  datatype State = State(section: Option<string>, sub: Option<string>)

  /** Before any header both are `None`. */
  const Initial: State := State(None, None)

  /** The state after one entry: a header, active or commented out, replaces
      it; every other entry leaves it as it was. */
  function Step(st: State, e: Entry): State {
    if e.Section? then State(Some(e.name), e.sub) else st
  }
}

=== FILE: optional.dfy ===
/** The absent-or-present values the parser stores for `None` and for
    dictionary fields that may be missing. */
module Optional {

  datatype Option<+T> = None | Some(value: T) {

    /** The carried value, or `default` when absent (Python's `dict.get(k, default)`). */
    function GetOr(default: T): T {
      match this
      case Some(v) => v
      case None => default
    }
  }
}

=== FILE: parser.dfy ===
/** The parse loop of `read_gitconfig` (app/main.py, lines 127-206) as a pure
    fold: every physical line becomes exactly one entry, and the section state
    is threaded from line to line. */
module Parser {
  import opened Optional
  import opened Text
  import opened Document
  import opened Patterns

  /** Lines 158-159: the text the header and key/value patterns are matched
      against. A commented-out line loses exactly one leading `#` and the
      whitespace around the rest; an active line is used as it is. */
  function Directive(stripped: string): string {
    if |stripped| > 0 && stripped[0] == '#' then Strip(stripped[1..]) else stripped
  }

  lemma DirectiveWithin(stripped: string, c: char)
    requires c in Directive(stripped)
    ensures c in stripped
  {
    if |stripped| > 0 && stripped[0] == '#' {
      StripWithin(stripped[1..], c);
    }
  }

  /** Lines 160-206: the entry for a line that is neither blank nor a pure
      comment, from its directive text `d`. A header match wins over a
      key/value match, and a line matching neither is kept as unknown. */
  function ParseDirective(d: string, disabled: bool, line: string, n: nat, st: State): (r: (Entry, State))
    requires '\n' !in d
    ensures r.0.line == n && r.0.raw == line
    ensures r.1 == Step(st, r.0)
    ensures !r.0.Empty? && !r.0.Comment?
    ensures r.0.Section? <==> HeaderContent(d).Some?
    ensures r.0.Config? <==> HeaderContent(d).None? && MatchKeyValue(d).Some?
    ensures r.0.Config? ==> r.0.section == st.section && r.0.sub == st.sub
    ensures r.0.Section? || r.0.Config? ==> r.0.disabled == disabled
    ensures r.0.Section? ==> (r.0.name, r.0.sub) == SplitHeader(HeaderContent(d).value)
    ensures r.0.Config? ==> (r.0.key, r.0.value) == MatchKeyValue(d).value
  {
    match HeaderContent(d)
    case Some(content) =>
      var (name, sub) := SplitHeader(content);
      (Section(n, name, sub, disabled, line), State(Some(name), sub))
    case None =>
      match MatchKeyValue(d)
      case Some((key, value)) =>
        (Config(n, st.section, st.sub, key, value, disabled, line), st)
      case None =>
        (Unknown(n, line), st)
  }

  /** The directive text of a single line is a single line. */
  lemma DirectiveSingleLine(line: string)
    requires '\n' !in line
    ensures '\n' !in Directive(Strip(line))
  {
    if '\n' in Directive(Strip(line)) {
      DirectiveWithin(Strip(line), '\n');
      StripWithin(line, '\n');
    }
  }

  /** One iteration of the loop: the entry for `line` (line number `n`)
      under the running section state `st`, and the state for the next line.
      A blank line is empty, a `#` line that does not look like a
      commented-out header or key/value line is a comment, and any other line
      is read from its directive text, disabled exactly when it starts with
      `#`. */
  function ParseLine(line: string, n: nat, st: State): (r: (Entry, State))
    requires '\n' !in line
    ensures r.0.line == n && r.0.raw == line
    ensures r.1 == Step(st, r.0)
    ensures r.0.Empty? <==> AllSpace(line)
    ensures r.0.Comment? <==> IsPureComment(Strip(line))
    ensures r.0.Config? ==> r.0.section == st.section && r.0.sub == st.sub
    ensures r.0.Section? || r.0.Config? ==> (r.0.disabled <==> Strip(line)[0] == '#')
    ensures r.0.Section? ==> var d := Directive(Strip(line));
      HeaderContent(d).Some? && (r.0.name, r.0.sub) == SplitHeader(HeaderContent(d).value)
    ensures r.0.Config? ==> var d := Directive(Strip(line));
      '\n' !in d && HeaderContent(d).None? && MatchKeyValue(d) == Some((r.0.key, r.0.value))
    ensures !AllSpace(line) && !IsPureComment(Strip(line)) ==> Directed(r.0, line)
  {
    var stripped := Strip(line);
    if stripped == [] then
      (Empty(n, line), st)
    else if IsPureComment(stripped) then
      (Comment(n, line), st)
    else
      DirectiveSingleLine(line);
      ParseDirective(Directive(stripped), stripped[0] == '#', line, n, st)
  }

  /** The entry `e` read from a line that is neither blank nor a pure
      comment is a header exactly when the line's directive text matches the
      header pattern, and a key/value entry exactly when only the key/value
      pattern matches it. */
  predicate Directed(e: Entry, line: string)
    requires !AllSpace(line)
  {
    var d := Directive(Strip(line));
    && '\n' !in d
    && (e.Section? <==> HeaderContent(d).Some?)
    && (e.Config? <==> HeaderContent(d).None? && MatchKeyValue(d).Some?)
  }

  /** A line that is neither blank nor a pure comment is read from its
      directive text. */
  lemma ParseLineDirective(line: string, n: nat, st: State)
    requires '\n' !in line && Strip(line) != [] && !IsPureComment(Strip(line))
    ensures '\n' !in Directive(Strip(line))
    ensures ParseLine(line, n, st)
      == ParseDirective(Directive(Strip(line)), Strip(line)[0] == '#', line, n, st)
  {
    DirectiveSingleLine(line);
  }

  /** A directive text the header pattern matches yields a header built
      from the bracket text. */
  lemma DirectiveHeader(d: string, disabled: bool, line: string, n: nat, st: State, content: string)
    requires '\n' !in d && HeaderContent(d) == Some(content)
    ensures ParseDirective(d, disabled, line, n, st).0
      == Section(n, SplitHeader(content).0, SplitHeader(content).1, disabled, line)
  {
  }

  /** A directive text the header pattern does not match but the key/value
      pattern does yields a key/value entry under the current state. */
  lemma DirectiveKeyValue(d: string, disabled: bool, line: string, n: nat, st: State)
    requires '\n' !in d && HeaderContent(d).None? && MatchKeyValue(d).Some?
    ensures ParseDirective(d, disabled, line, n, st).0
      == Config(n, st.section, st.sub, MatchKeyValue(d).value.0, MatchKeyValue(d).value.1, disabled, line)
  {
  }

  /** A line whose directive text holds a header becomes a header entry
      built from the bracket text; it is disabled exactly when the stripped
      line starts with `#`. */
  lemma ParseHeaderLine(line: string, n: nat, st: State, content: string)
    requires '\n' !in line && Strip(line) != [] && !IsPureComment(Strip(line))
    requires HeaderContent(Directive(Strip(line))) == Some(content)
    ensures ParseLine(line, n, st).0
      == Section(n, SplitHeader(content).0, SplitHeader(content).1, Strip(line)[0] == '#', line)
  {
    ParseLineDirective(line, n, st);
    DirectiveHeader(Directive(Strip(line)), Strip(line)[0] == '#', line, n, st, content);
  }

  /** A line whose directive text is no header but matches the key/value
      pattern becomes a key/value entry under the current state. */
  lemma ParseKeyValueLine(line: string, n: nat, st: State, key: string, value: string)
    requires '\n' !in line && Strip(line) != [] && !IsPureComment(Strip(line))
    requires HeaderContent(Directive(Strip(line))).None?
    requires '\n' !in Directive(Strip(line))
    requires MatchKeyValue(Directive(Strip(line))) == Some((key, value))
    ensures ParseLine(line, n, st).0
      == Config(n, st.section, st.sub, key, value, Strip(line)[0] == '#', line)
  {
    ParseLineDirective(line, n, st);
    DirectiveKeyValue(Directive(Strip(line)), Strip(line)[0] == '#', line, n, st);
  }

  /** The loop from line number `n` onwards, starting in state `st`. */
  function ParseFrom(lines: seq<string>, n: nat, st: State): (r: seq<Entry>)
    requires forall i :: 0 <= i < |lines| ==> '\n' !in lines[i]
    ensures |r| == |lines|
    ensures forall i :: 0 <= i < |r| ==> r[i].line == n + i && r[i].raw == lines[i]
    decreases |lines|
  {
    if |lines| == 0 then []
    else
      var (e, st') := ParseLine(lines[0], n, st);
      [e] + ParseFrom(lines[1..], n + 1, st')
  }

  /** The loop classifies each line on its own: an entry is empty exactly
      when its line is blank, and a comment exactly when its line is a pure
      comment, whatever the state. */
  lemma {:induction false} ParseFromClassifies(lines: seq<string>, n: nat, st: State)
    requires forall i :: 0 <= i < |lines| ==> '\n' !in lines[i]
    ensures forall i :: 0 <= i < |lines| ==>
      && (ParseFrom(lines, n, st)[i].Empty? <==> AllSpace(lines[i]))
      && (ParseFrom(lines, n, st)[i].Comment? <==> IsPureComment(Strip(lines[i])))
      && (!AllSpace(lines[i]) && !IsPureComment(Strip(lines[i])) ==> Directed(ParseFrom(lines, n, st)[i], lines[i]))
    decreases |lines|
  {
    if |lines| > 0 {
      var (e, after) := ParseLine(lines[0], n, st);
      var tail := ParseFrom(lines[1..], n + 1, after);
      assert ParseFrom(lines, n, st) == [e] + tail;
      ParseFromClassifies(lines[1..], n + 1, after);
      forall i | 0 < i < |lines|
        ensures ParseFrom(lines, n, st)[i] == tail[i - 1] && lines[i] == lines[1..][i - 1]
      {
      }
    }
  }

  /** The raw texts of a sequence of entries. */
  function Raws(es: seq<Entry>): seq<string> {
    seq(|es|, i requires 0 <= i < |es| => es[i].raw)
  }

  /** `read_gitconfig` without its I/O: never fails, yields one entry per
      `'\n'`-separated line numbered from 1, and the raw texts of the entries
      joined with `'\n'` are the input again. */
  function Parse(content: string): (r: seq<Entry>)
    ensures |r| == Occurrences(content, '\n') + 1
    ensures forall i :: 0 <= i < |r| ==> r[i].line == i + 1
    ensures Join(Raws(r)) == content
  {
    var lines := Split(content);
    var r := ParseFrom(lines, 1, Initial);
    assert Raws(r) == lines;
    JoinSplit(content);
    r
  }

  /** Entry `i` of a document is empty exactly when line `i` is blank, and
      a comment exactly when line `i` is a pure comment. */
  lemma ParseClassifies(content: string)
    ensures forall i :: 0 <= i < |Parse(content)| ==>
      && (Parse(content)[i].Empty? <==> AllSpace(Split(content)[i]))
      && (Parse(content)[i].Comment? <==> IsPureComment(Strip(Split(content)[i])))
      && (!AllSpace(Split(content)[i]) && !IsPureComment(Strip(Split(content)[i]))
          ==> Directed(Parse(content)[i], Split(content)[i]))
  {
    assert Parse(content) == ParseFrom(Split(content), 1, Initial);
    ParseFromClassifies(Split(content), 1, Initial);
  }

  /** The section state in force after the entries `es` when the state
      before them was `st`. */
  function StateAfter(es: seq<Entry>, st: State): State
    decreases |es|
  {
    if |es| == 0 then st else Step(StateAfter(es[..|es| - 1], st), es[|es| - 1])
  }

  lemma {:induction false} StateAfterCons(e: Entry, es: seq<Entry>, st: State)
    ensures StateAfter([e] + es, st) == StateAfter(es, Step(st, e))
    decreases |es|
  {
    if |es| > 0 {
      assert ([e] + es)[..|es|] == [e] + es[..|es| - 1];
      StateAfterCons(e, es[..|es| - 1], st);
    }
  }

  /** A key/value entry of the loop carries the state left by the entries
      before it. */
  lemma {:induction false} ConfigCarriesState(lines: seq<string>, n: nat, st: State, i: nat)
    requires forall k :: 0 <= k < |lines| ==> '\n' !in lines[k]
    requires i < |lines|
    ensures var r := ParseFrom(lines, n, st);
      r[i].Config? ==> r[i].section == StateAfter(r[..i], st).section && r[i].sub == StateAfter(r[..i], st).sub
    decreases |lines|
  {
    var r := ParseFrom(lines, n, st);
    var p := ParseLine(lines[0], n, st);
    var rest := ParseFrom(lines[1..], n + 1, p.1);
    assert r == [p.0] + rest;
    if i > 0 {
      ConfigCarriesState(lines[1..], n + 1, p.1, i - 1);
      assert r[..i] == [p.0] + rest[..i - 1];
      StateAfterCons(p.0, rest[..i - 1], st);
    } else {
      assert r[..i] == [];
    }
  }

  /** Entry `i` of the loop is what one iteration makes of line `i`, under
      the state left by the entries before it. */
  lemma {:induction false} ParseFromAt(lines: seq<string>, n: nat, st: State, i: nat)
    requires forall k :: 0 <= k < |lines| ==> '\n' !in lines[k]
    requires i < |lines|
    ensures ParseFrom(lines, n, st)[i] == ParseLine(lines[i], n + i, StateAfter(ParseFrom(lines, n, st)[..i], st)).0
    decreases |lines|
  {
    var r := ParseFrom(lines, n, st);
    var p := ParseLine(lines[0], n, st);
    var rest := ParseFrom(lines[1..], n + 1, p.1);
    assert r == [p.0] + rest;
    if i > 0 {
      ParseFromAt(lines[1..], n + 1, p.1, i - 1);
      assert r[..i] == [p.0] + rest[..i - 1];
      StateAfterCons(p.0, rest[..i - 1], st);
    } else {
      assert r[..i] == [];
    }
  }

  /** Entry `i` of a document is what one iteration of the loop makes of
      line `i` (numbered `i + 1`), under the state left by the entries above
      it; so its kind, flag, name and subsection, key and value are those
      `ParseLine` gives for that line. */
  lemma ParseAt(content: string, i: nat)
    requires i < |Parse(content)|
    ensures i < |Split(content)|
    ensures Parse(content)[i]
      == ParseLine(Split(content)[i], i + 1, StateAfter(Parse(content)[..i], Initial)).0
  {
    assert Parse(content) == ParseFrom(Split(content), 1, Initial);
    ParseFromAt(Split(content), 1, Initial, i);
  }

  /** The state after entries that contain a header is that of the LAST
      header among them, whether active or commented out. */
  lemma {:induction false} StateAfterLastHeader(es: seq<Entry>, st: State, j: nat)
    requires j < |es| && es[j].Section?
    requires forall m :: j < m < |es| ==> !es[m].Section?
    ensures StateAfter(es, st) == State(Some(es[j].name), es[j].sub)
    decreases |es|
  {
    if j < |es| - 1 {
      StateAfterLastHeader(es[..|es| - 1], st, j);
    }
  }

  /** Entries without any header leave the state alone. */
  lemma {:induction false} StateAfterNoHeader(es: seq<Entry>, st: State)
    requires forall m :: 0 <= m < |es| ==> !es[m].Section?
    ensures StateAfter(es, st) == st
    decreases |es|
  {
    if |es| > 0 {
      StateAfterNoHeader(es[..|es| - 1], st);
    }
  }

  /** A key/value entry carries the section and subsection of the nearest
      header above it, active or commented out, whatever lies in between. */
  lemma ConfigUnderNearestHeader(content: string, i: nat, j: nat)
    requires j < i < |Parse(content)|
    requires Parse(content)[i].Config? && Parse(content)[j].Section?
    requires forall m :: j < m < i ==> !Parse(content)[m].Section?
    ensures Parse(content)[i].section == Some(Parse(content)[j].name)
    ensures Parse(content)[i].sub == Parse(content)[j].sub
  {
    var r := Parse(content);
    ConfigCarriesState(Split(content), 1, Initial, i);
    StateAfterLastHeader(r[..i], Initial, j);
  }

  /** A key/value entry above every header has neither section nor
      subsection. */
  lemma ConfigBeforeAnyHeader(content: string, i: nat)
    requires i < |Parse(content)| && Parse(content)[i].Config?
    requires forall m :: 0 <= m < i ==> !Parse(content)[m].Section?
    ensures Parse(content)[i].section == None && Parse(content)[i].sub == None
  {
    var r := Parse(content);
    ConfigCarriesState(Split(content), 1, Initial, i);
    StateAfterNoHeader(r[..i], Initial);
  }
}

=== FILE: patterns.dfy ===
/** The three regular expressions of the parser, each modelled as the set of
    strings it matches plus the groups it captures, and the bracket-splitting
    of a section header. Every `re.match` is anchored at the start only. */
module Patterns {
  import opened Optional
  import opened Text

  /** `re.match(r'\[([^\]]+)\]', s)`, returning group 1: the non-empty text
      between an opening bracket at the start and the first closing bracket.
      Whatever follows that closing bracket is ignored. */
  function HeaderContent(s: string): (r: Option<string>)
    ensures r.Some? <==> |s| >= 3 && s[0] == '[' && s[1] != ']' && ']' in s[2..]
    ensures r.Some? ==> r.value != [] && ']' !in r.value
    ensures r.Some? ==> |r.value| + 2 <= |s| && s[..|r.value| + 2] == "[" + r.value + "]"
  {
    if |s| > 0 && s[0] == '[' && ']' in s[1..] then
      var j := IndexOf(s[1..], ']');
      assert ']' in s[2..] ==> ']' in s[1..];
      if j == 0 then None
      else
        assert s[1 + j] == ']' && s[2..][j - 1] == ']';
        Some(s[1..1 + j])
    else
      assert |s| >= 2 ==> s[1..][1..] == s[2..];
      None
  }

  /** A header is recognised with exactly the text between its brackets. */
  lemma HeaderContentOf(c: string, rest: string)
    requires c != [] && ']' !in c
    ensures HeaderContent("[" + c + "]" + rest) == Some(c)
  {
    var s := "[" + c + "]" + rest;
    assert s[0] == '[';
    assert s[1..1 + |c|] == c;
    assert s[1..][..|c|] == c;
    assert s[1..][|c|] == ']';
    assert IndexOf(s[1..], ']') == |c|;
  }

  /** Lines 165-171: the bracket text split on its first double quote. Without
      a quote the whole text, stripped, is the section name and there is no
      subsection; with one, the name is the stripped text before it and the
      subsection is the text after it, with trailing quotes removed and then
      stripped. */
  function SplitHeader(content: string): (r: (string, Option<string>))
    ensures Stripped(r.0) && '"' !in r.0
    ensures r.1.Some? <==> '"' in content
    ensures r.1.Some? ==> Stripped(r.1.value)
    ensures forall c :: c in r.0 ==> c in content
    ensures r.1.Some? ==> forall c :: c in r.1.value ==> c in content
    ensures '"' !in content ==> r == (Strip(content), None)
  {
    if '"' in content then
      var q := IndexOf(content, '"');
      var name := Strip(content[..q]);
      var sub := Strip(RStripChar(content[q + 1..], '"'));
      assert forall c :: c in name ==> c in content[..q] by {
        forall c | c in name ensures c in content[..q] { StripWithin(content[..q], c); }
      }
      assert forall c :: c in sub ==> c in content by {
        forall c | c in sub ensures c in content {
          StripWithin(RStripChar(content[q + 1..], '"'), c);
        }
      }
      (name, Some(sub))
    else
      var name := Strip(content);
      assert forall c :: c in name ==> c in content by {
        forall c | c in name ensures c in content { StripWithin(content, c); }
      }
      (name, None)
  }

  /** With its first quote at `q`, the bracket text splits around `q`. */
  lemma SplitHeaderAt(content: string, q: nat)
    requires q < |content| && content[q] == '"' && '"' !in content[..q]
    ensures SplitHeader(content) == (Strip(content[..q]), Some(Strip(RStripChar(content[q + 1..], '"'))))
  {
    IndexOfUnique(content, '"', q);
  }

  /** The first whitespace position at or after `i`, or the end: `\S+` is
      greedy up to there. */
  function RunEnd(s: string, i: nat): (n: nat)
    requires i <= |s|
    ensures i <= n <= |s| && NoSpaceBetween(s, i, n)
    ensures n == |s| || IsSpace(s[n])
    decreases |s| - i
  {
    if i < |s| && !IsSpace(s[i]) then RunEnd(s, i + 1) else i
  }

  /** `(\S+)\s*=` matches at the start of `s` with group 1 equal to `s[..k]`:
      the first `k` characters are non-space, and after skipping whitespace
      from `k` an `=` follows. */
  predicate KeyEndsAt(s: string, k: nat) {
    && 1 <= k <= |s|
    && NoSpaceBetween(s, 0, k)
    && SkipSpace(s, k) < |s|
    && s[SkipSpace(s, k)] == '='
  }

  /** Tries `k`, `k - 1`, ..., `1` as the end of group 1, as the regular
      expression engine backtracks from the greedy `\S+`. */
  function SearchKeyEnd(s: string, k: nat): (r: Option<nat>)
    requires k <= |s| && NoSpaceBetween(s, 0, k)
    ensures r.Some? ==> r.value <= k && KeyEndsAt(s, r.value)
    ensures forall j: nat :: (r.Some? ==> r.value < j) && j <= k ==> !KeyEndsAt(s, j)
    decreases k
  {
    if k == 0 then None
    else if SkipSpace(s, k) < |s| && s[SkipSpace(s, k)] == '=' then Some(k)
    else SearchKeyEnd(s, k - 1)
  }

  /** The end of group 1 of `re.match(r'(\S+)\s*=', s)`: the LONGEST key
      that works, or none when the pattern does not match at all. */
  function FindKeyEnd(s: string): (r: Option<nat>)
    ensures r.Some? ==> KeyEndsAt(s, r.value)
    ensures r.Some? ==> forall j: nat :: r.value < j ==> !KeyEndsAt(s, j)
    ensures r.None? ==> forall j: nat :: !KeyEndsAt(s, j)
  {
    var n := RunEnd(s, 0);
    assert forall j: nat :: n < j ==> !KeyEndsAt(s, j) by {
      forall j: nat | n < j ensures !KeyEndsAt(s, j) {
        if j <= |s| { assert IsSpace(s[n]); }
      }
    }
    SearchKeyEnd(s, n)
  }

  /** The key end the key/value pattern finds, given that `k` works and no
      longer key does. */
  lemma KeyEndIs(s: string, k: nat)
    requires KeyEndsAt(s, k)
    requires forall j: nat :: k < j <= |s| ==> !KeyEndsAt(s, j)
    ensures FindKeyEnd(s) == Some(k)
  {
  }

  /** Line 184 with lines 186-187: `re.match(r'(\S+)\s*=\s*(.*)$', s)` on a
      single line (where `(.*)$` takes the rest), its key group stripped (a
      no-op) and its value group stripped. */
  function MatchKeyValue(s: string): (r: Option<(string, string)>)
    requires '\n' !in s
    ensures r.None? ==> forall k: nat :: !KeyEndsAt(s, k)
    ensures r.Some? ==> KeyEndsAt(s, |r.value.0|) && r.value.0 == s[..|r.value.0|]
    ensures r.Some? ==> forall j: nat :: |r.value.0| < j ==> !KeyEndsAt(s, j)
    ensures r.Some? ==> r.value.1 == Strip(s[SkipSpace(s, |r.value.0|) + 1..])
  {
    match FindKeyEnd(s)
    case None => None
    case Some(k) =>
      var key := s[..k];
      assert |key| == k;
      Some((key, Strip(s[SkipSpace(s, k) + 1..])))
  }

  /** The groups of a key/value match in positions: the key is the text up to
      the key end, the value the stripped text after the `=`. */
  lemma MatchKeyValueGroups(s: string)
    requires '\n' !in s && FindKeyEnd(s).Some?
    ensures MatchKeyValue(s).Some?
    ensures MatchKeyValue(s).value.0 == s[..FindKeyEnd(s).value]
    ensures MatchKeyValue(s).value.1 == Strip(s[SkipSpace(s, FindKeyEnd(s).value) + 1..])
  {
  }

  /** `re.match(r'#\s*\[', s)`. */
  predicate OpensHeader(s: string) {
    |s| > 0 && s[0] == '#' && SkipSpace(s, 1) < |s| && s[SkipSpace(s, 1)] == '['
  }

  /** `re.match(r'#\s*\S+\s*=', s)`. */
  predicate OpensKeyValue(s: string) {
    |s| > 0 && s[0] == '#' && FindKeyEnd(s[SkipSpace(s, 1)..]).Some?
  }

  /** Line 149: a stripped line starting with `#` that looks neither like a
      commented-out header nor like a commented-out key/value line. */
  predicate IsPureComment(stripped: string) {
    |stripped| > 0 && stripped[0] == '#' && !OpensHeader(stripped) && !OpensKeyValue(stripped)
  }
}

=== FILE: roundtrip.dfy ===
/** What survives a parse, render, parse cycle. Comment and unknown lines are
    written back verbatim; headers and key/value lines are re-canonicalised,
    and their meaning (kind, section, subsection, key, value, disabled flag)
    is kept except for three header shapes, each shown by a lemma below. */
module RoundTrip {
  import opened Optional
  import opened Text
  import opened Document
  import opened Patterns
  import opened Parser
  import opened Serializer

  /** A subsection as the renderer treats it: an empty one is dropped. */
  function NormSub(sub: Option<string>): Option<string> {
    if sub.Some? && sub.value == "" then None else sub
  }

  function NormState(st: State): State {
    State(st.section, NormSub(st.sub))
  }

  /** The stripped text of a rendered key/value line, `#` aside. */
  function KeyValueBody(key: string, value: string): string {
    key + " =" + (if value == [] then [] else " " + value)
  }

  /** The rendered text `key = value` would be taken for a header: it opens
      with `[`, the next character is no `]`, and a `]` follows later. */
  predicate HeaderLike(key: string, value: string) {
    && key != [] && key[0] == '['
    && (|key| == 1 || key[1] != ']')
    && ((|key| > 2 && ']' in key[2..]) || ']' in value)
  }

  /** What the parser guarantees of each entry, and re-rendering relies on. */
  predicate WellFormed(e: Entry) {
    match e
    case Empty(_, _) => true
    case Comment(_, raw) => '\n' !in raw
    case Unknown(_, raw) => '\n' !in raw
    case Section(_, name, sub, _, _) =>
      && Stripped(name) && '"' !in name && ']' !in name && '\n' !in name
      && (sub.Some? ==> Stripped(sub.value) && ']' !in sub.value && '\n' !in sub.value)
    case Config(_, _, _, key, value, disabled, _) => KeyValueFields(key, value, disabled)
  }

  /** The key and value of a parsed key/value line: a non-blank key without
      whitespace that opens with `#` only when commented out, a stripped
      single-line value, and no text the header pattern would take. */
  predicate KeyValueFields(key: string, value: string, disabled: bool) {
    && key != [] && NoSpace(key) && (!disabled ==> key[0] != '#')
    && Stripped(value) && '\n' !in value
    && !HeaderLike(key, value)
  }

  /** Headers that re-render to a header with the same meaning: not a blank
      name without subsection (which renders as `[]`), and no subsection
      ending in a double quote (which the re-parse strips). */
  predicate Stable(e: Entry) {
    e.Section? ==>
      && (e.name != [] || NormSub(e.sub).Some?)
      && (NormSub(e.sub).Some? ==> e.sub.value[|e.sub.value| - 1] != '"')
  }

  /** `b` means what `a` means: same kind and line number, same raw text for
      verbatim kinds, and same section, subsection (up to an empty one), key,
      value and disabled flag for headers and key/value lines. */
  predicate Equivalent(a: Entry, b: Entry) {
    && a.line == b.line
    && match a
       case Empty(_, _) => b.Empty?
       case Comment(_, _) => b == a
       case Unknown(_, _) => b == a
       case Section(_, name, sub, disabled, _) =>
         b.Section? && b.name == name && b.sub == NormSub(sub) && b.disabled == disabled
       case Config(_, section, sub, key, value, disabled, _) =>
         && b.Config? && b.key == key && b.value == value && b.disabled == disabled
         && b.section == section && b.sub == NormSub(sub)
  }

  // ----- rendered key/value lines -------------------------------------------

  /** A rendered key/value line is the body padded with whitespace. */
  lemma KeyValueLineStrips(key: string, value: string, prefix: string)
    requires key != [] && !IsSpace(key[0]) && Stripped(value)
    requires prefix == "" || prefix == "# "
    ensures Strip("    " + prefix + key + " = " + value) == prefix + KeyValueBody(key, value)
  {
    PunctuationIsNotSpace();
    var b := prefix + KeyValueBody(key, value);
    var pad := if value == [] then " " else "";
    assert "    " + prefix + key + " = " + value == "    " + b + pad;
    StripPadded("    ", b, pad);
  }

  lemma KeyValueBodyShape(key: string, value: string)
    requires key != [] && NoSpace(key) && Stripped(value) && '\n' !in value
    ensures var b := KeyValueBody(key, value);
      && |b| >= |key| + 2 && b[..|key|] == key && b[|key|] == ' ' && b[|key| + 1] == '='
      && b[|key| + 2..] == (if value == [] then [] else " " + value)
      && '\n' !in b && Stripped(b) && b[0] == key[0]
  {
    PunctuationIsNotSpace();
    NoSpaceNoNewline(key);
  }

  /** The header pattern matches a rendered key/value text exactly when the
      key and value are `HeaderLike`. */
  lemma KeyValueBodyHeader(key: string, value: string)
    requires key != []
    ensures HeaderContent(KeyValueBody(key, value)).Some? <==> HeaderLike(key, value)
  {
    var b := KeyValueBody(key, value);
    var tail := if value == [] then [] else " " + value;
    assert b == key + " =" + tail;
    assert ']' in tail <==> ']' in value;
    if |key| == 1 {
      assert b[1] == ' ' && b[2..] == "=" + tail;
    } else {
      assert b[1] == key[1] && b[2..] == key[2..] + " =" + tail;
    }
  }

  /** The key/value pattern reads a rendered body back as the same key and
      value. */
  lemma KeyValueBodyMatches(key: string, value: string)
    requires key != [] && NoSpace(key) && Stripped(value) && '\n' !in value
    ensures '\n' !in KeyValueBody(key, value)
    ensures FindKeyEnd(KeyValueBody(key, value)) == Some(|key|)
    ensures MatchKeyValue(KeyValueBody(key, value)) == Some((key, value))
  {
    var b := KeyValueBody(key, value);
    KeyValueBodyShape(key, value);
    KeyValueBodyKeyEnd(key, value);
    KeyValueBodyValue(key, value);
    MatchKeyValueGroups(b);
  }

  /** In a rendered body the key ends at the blank before `=`, and no longer
      key can, since that blank cuts the `\S+` run. */
  lemma KeyValueBodyKeyEnd(key: string, value: string)
    requires key != [] && NoSpace(key) && Stripped(value) && '\n' !in value
    ensures FindKeyEnd(KeyValueBody(key, value)) == Some(|key|)
    ensures SkipSpace(KeyValueBody(key, value), |key|) == |key| + 1
  {
    var b := KeyValueBody(key, value);
    var k := |key|;
    KeyValueBodyShape(key, value);
    PunctuationIsNotSpace();
    SkipSpaceAt(b, k, k + 1);
    assert KeyEndsAt(b, k);
    assert forall j: nat :: k < j <= |b| ==> !NoSpaceBetween(b, 0, j) by {
      assert IsSpace(b[k]);
    }
    KeyEndIs(b, k);
  }

  /** The text after the `=` of a rendered body strips to the value. */
  lemma KeyValueBodyValue(key: string, value: string)
    requires key != [] && NoSpace(key) && Stripped(value) && '\n' !in value
    ensures |key| + 2 <= |KeyValueBody(key, value)|
    ensures Strip(KeyValueBody(key, value)[|key| + 2..]) == value
  {
    KeyValueBodyShape(key, value);
    var tail := KeyValueBody(key, value)[|key| + 2..];
    PunctuationIsNotSpace();
    if value == [] {
      StripPadded("", [], "");
      assert "" + [] + "" == tail;
    } else {
      StripPadded(" ", value, "");
      assert " " + value + "" == tail;
    }
  }

  // ----- rendered headers ---------------------------------------------------

  lemma HeaderInnerExcludes(name: string, sub: Option<string>, c: char)
    requires c != ' ' && c != '"' && c !in name
    requires sub.Some? ==> c !in sub.value
    ensures c !in HeaderInner(name, sub)
  {
  }

  /** The header pattern reads a rendered header back with its bracket text. */
  lemma HeaderTextMatches(name: string, sub: Option<string>)
    requires ']' !in name && (sub.Some? ==> ']' !in sub.value)
    requires name != [] || NormSub(sub).Some?
    ensures HeaderContent(HeaderText(name, sub)) == Some(HeaderInner(name, sub))
  {
    var inner := HeaderInner(name, sub);
    HeaderInnerExcludes(name, sub, ']');
    HeaderContentOf(inner, "");
    assert "[" + inner + "]" + "" == HeaderText(name, sub);
  }

  lemma RStripCharLast(s: string, c: char)
    requires s == [] || s[|s| - 1] != c
    ensures RStripChar(s + [c], c) == s
  {
    assert (s + [c])[..|s|] == s;
  }

  /** A bracket text `name "sub"` splits back into its name and subsection. */
  lemma SplitHeaderQuoted(name: string, sub: string)
    requires Stripped(name) && '"' !in name && Stripped(sub)
    requires sub != [] && sub[|sub| - 1] != '"'
    ensures SplitHeader(name + " \"" + sub + "\"") == (name, Some(sub))
  {
    var inner := name + " \"" + sub + "\"";
    QuotedHeaderParts(name, sub);
    SplitHeaderAt(inner, |name| + 1);
    PunctuationIsNotSpace();
    StripPadded("", name, " ");
    assert "" + name + " " == name + " ";
    RStripCharLast(sub, '"');
    StripStripped(sub);
  }

  /** The pieces of `name "sub"` around its first quote. */
  lemma QuotedHeaderParts(name: string, sub: string)
    requires '"' !in name
    ensures var inner := name + " \"" + sub + "\"";
      && |name| + 1 < |inner| && inner[|name| + 1] == '"'
      && inner[..|name| + 1] == name + " " && '"' !in name + " "
      && inner[|name| + 2..] == sub + ['"']
  {
  }

  /** The bracket text of a rendered header splits back into its name and
      normalised subsection. */
  lemma SplitHeaderRendered(name: string, sub: Option<string>)
    requires Stripped(name) && '"' !in name
    requires sub.Some? ==> Stripped(sub.value)
    requires NormSub(sub).Some? ==> sub.value[|sub.value| - 1] != '"'
    ensures SplitHeader(HeaderInner(name, sub)) == (name, NormSub(sub))
  {
    if NormSub(sub).Some? {
      SplitHeaderQuoted(name, sub.value);
    } else {
      StripStripped(name);
    }
  }

  // ----- one line -----------------------------------------------------------

  /** `# ` in front of a header or key/value text keeps it a directive: the
      line is no pure comment, and the directive text is the text again. */
  lemma CommentedOutDirective(b: string)
    requires b != [] && Stripped(b)
    requires b[0] == '[' || FindKeyEnd(b).Some?
    ensures !IsPureComment("# " + b)
    ensures Directive("# " + b) == b
  {
    var s := "# " + b;
    PunctuationIsNotSpace();
    SkipSpaceAt(s, 1, 2);
    assert s[2..] == b;
    StripPadded(" ", b, "");
    assert s[1..] == " " + b + "";
  }

  /** A non-empty active directive text is no pure comment and is matched as
      it is. */
  lemma ActiveDirective(b: string)
    requires b != [] && b[0] != '#'
    ensures !IsPureComment(b) && Directive(b) == b
  {
  }

  /** A stripped active line is read from its own text. */
  lemma ActiveLine(s: string, n: nat, st: State)
    requires '\n' !in s && s != [] && Stripped(s) && s[0] != '#'
    ensures ParseLine(s, n, st) == ParseDirective(s, false, s, n, st)
  {
    StripStripped(s);
    ActiveDirective(s);
    ParseLineDirective(s, n, st);
  }

  /** A stripped header or key/value text behind `# ` is read from that
      text, disabled. */
  lemma DisabledLine(b: string, n: nat, st: State)
    requires '\n' !in b && b != [] && Stripped(b)
    requires b[0] == '[' || FindKeyEnd(b).Some?
    ensures '\n' !in "# " + b
    ensures ParseLine("# " + b, n, st) == ParseDirective(b, true, "# " + b, n, st)
  {
    CommentedOutLine(b);
    ParseLineDirective("# " + b, n, st);
  }

  /** `# ` before a stripped directive text is a stripped single line, no
      pure comment, with that text as its directive. */
  lemma CommentedOutLine(b: string)
    requires '\n' !in b && b != [] && Stripped(b)
    requires b[0] == '[' || FindKeyEnd(b).Some?
    ensures '\n' !in "# " + b && Strip("# " + b) == "# " + b
    ensures !IsPureComment("# " + b) && Directive("# " + b) == b
  {
    var s := "# " + b;
    PunctuationIsNotSpace();
    assert s[0] == '#' && s[|s| - 1] == b[|b| - 1];
    StripStripped(s);
    CommentedOutDirective(b);
  }

  /** A rendered header is a stripped, single-line `[inner]`. */
  lemma HeaderTextShape(name: string, sub: Option<string>)
    requires ']' !in name && '\n' !in name && (sub.Some? ==> ']' !in sub.value && '\n' !in sub.value)
    requires name != [] || NormSub(sub).Some?
    ensures var h := HeaderText(name, sub);
      && h != [] && h[0] == '[' && Stripped(h) && '\n' !in h
      && HeaderContent(h) == Some(HeaderInner(name, sub))
  {
    PunctuationIsNotSpace();
    HeaderInnerExcludes(name, sub, '\n');
    HeaderTextMatches(name, sub);
  }

  /** A stripped header text parses as that header, active. */
  lemma ParseActiveHeader(h: string, inner: string, n: nat, st: State)
    requires h != [] && h[0] == '[' && Stripped(h) && '\n' !in h
    requires HeaderContent(h) == Some(inner)
    ensures ParseLine(h, n, st).0 == Section(n, SplitHeader(inner).0, SplitHeader(inner).1, false, h)
  {
    PunctuationIsNotSpace();
    ActiveLine(h, n, st);
    DirectiveHeader(h, false, h, n, st, inner);
  }

  /** A stripped header text behind `# ` parses as that header, disabled. */
  lemma ParseDisabledHeader(h: string, inner: string, n: nat, st: State)
    requires h != [] && h[0] == '[' && Stripped(h) && '\n' !in h
    requires HeaderContent(h) == Some(inner)
    ensures '\n' !in "# " + h
    ensures ParseLine("# " + h, n, st).0 == Section(n, SplitHeader(inner).0, SplitHeader(inner).1, true, "# " + h)
  {
    DisabledLine(h, n, st);
    DirectiveHeader(h, true, "# " + h, n, st, inner);
  }

  lemma RenderedSection(e: Entry)
    requires e.Section?
    ensures RenderEntry(e)
      == if e.disabled then "# " + HeaderText(e.name, e.sub) else HeaderText(e.name, e.sub)
  {
  }

  lemma RenderedConfig(e: Entry)
    requires e.Config?
    ensures RenderEntry(e) == "    " + (if e.disabled then "# " else "") + e.key + " = " + e.value
  {
    if !e.disabled {
      assert "    " + "" + e.key + " = " + e.value == "    " + (e.key + " = " + e.value);
    }
  }

  /** A rendered header, active or commented out, parses back as a header
      with the same name, the normalised subsection and the same flag. */
  lemma ReparseSection(e: Entry, n: nat, st: State)
    requires e.Section? && WellFormed(e) && Stable(e)
    ensures '\n' !in RenderEntry(e)
    ensures var r := ParseLine(RenderEntry(e), n, st).0;
      r.Section? && r.name == e.name && r.sub == NormSub(e.sub) && r.disabled == e.disabled
  {
    RenderedSection(e);
    ReparseHeaderText(e.name, e.sub, e.disabled, n, st);
  }

  /** A header line written from a stable name and subsection, active or
      commented out, re-reads as that header. */
  lemma ReparseHeaderText(name: string, sub: Option<string>, disabled: bool, n: nat, st: State)
    requires Stripped(name) && '"' !in name && ']' !in name && '\n' !in name
    requires sub.Some? ==> Stripped(sub.value) && ']' !in sub.value && '\n' !in sub.value
    requires name != [] || NormSub(sub).Some?
    requires NormSub(sub).Some? ==> sub.value[|sub.value| - 1] != '"'
    ensures var line := if disabled then "# " + HeaderText(name, sub) else HeaderText(name, sub);
      && '\n' !in line
      && ParseLine(line, n, st).0 == Section(n, name, NormSub(sub), disabled, line)
  {
    var h := HeaderText(name, sub);
    HeaderTextShape(name, sub);
    SplitHeaderRendered(name, sub);
    if disabled {
      ParseDisabledHeader(h, HeaderInner(name, sub), n, st);
    } else {
      ParseActiveHeader(h, HeaderInner(name, sub), n, st);
    }
  }

  lemma KeyValueLineSingle(key: string, value: string, prefix: string)
    requires '\n' !in key && '\n' !in value && '\n' !in prefix
    ensures '\n' !in "    " + prefix + key + " = " + value
  {
  }

  /** A line whose stripped text is a key/value text, with `# ` in front
      when disabled, parses as that key and value. */
  lemma ParseKeyValueText(line: string, b: string, disabled: bool, key: string, value: string, n: nat, st: State)
    requires '\n' !in line && '\n' !in b
    requires Strip(line) == (if disabled then "# " + b else b)
    requires b != [] && Stripped(b) && (!disabled ==> b[0] != '#')
    requires FindKeyEnd(b).Some? && HeaderContent(b).None?
    requires MatchKeyValue(b) == Some((key, value))
    ensures ParseLine(line, n, st).0 == Config(n, st.section, st.sub, key, value, disabled, line)
  {
    if disabled {
      CommentedOutDirective(b);
    } else {
      ActiveDirective(b);
    }
    ParseKeyValueLine(line, n, st, key, value);
  }

  /** A rendered key/value line, `# ` in front when disabled, parses as that
      key and value. */
  lemma ParseRenderedKeyValue(key: string, value: string, disabled: bool, n: nat, st: State)
    requires key != [] && NoSpace(key) && (!disabled ==> key[0] != '#')
    requires Stripped(value) && '\n' !in value && !HeaderLike(key, value)
    ensures var line := "    " + (if disabled then "# " else "") + key + " = " + value;
      && '\n' !in line
      && ParseLine(line, n, st).0 == Config(n, st.section, st.sub, key, value, disabled, line)
  {
    var prefix := if disabled then "# " else "";
    var line := "    " + prefix + key + " = " + value;
    var b := KeyValueBody(key, value);
    KeyValueBodyShape(key, value);
    KeyValueBodyMatches(key, value);
    KeyValueBodyHeader(key, value);
    KeyValueLineStrips(key, value, prefix);
    NoSpaceNoNewline(key);
    KeyValueLineSingle(key, value, prefix);
    assert prefix + b == if disabled then "# " + b else b;
    ParseKeyValueText(line, b, disabled, key, value, n, st);
  }

  /** A rendered key/value line, active or commented out, parses back as a
      key/value entry with the same key, value and flag, under the state it
      is parsed in. */
  lemma ReparseConfig(e: Entry, n: nat, st: State)
    requires e.Config? && WellFormed(e)
    ensures '\n' !in RenderEntry(e)
    ensures ParseLine(RenderEntry(e), n, st).0
      == Config(n, st.section, st.sub, e.key, e.value, e.disabled, RenderEntry(e))
  {
    RenderedConfig(e);
    ParseRenderedKeyValue(e.key, e.value, e.disabled, n, st);
  }

  /** A key/value record from the front end whose key and value (missing
      ones read as `""`) are those of a parsed entry renders as one line that
      parses back as a key/value entry with that key, value and flag. */
  lemma ReparseConfigRecord(rec: Record, n: nat, st: State)
    requires rec.kind == Some("config")
    requires KeyValueFields(rec.key.GetOr(""), rec.value.GetOr(""), rec.disabled.GetOr(false))
    ensures '\n' !in RenderRecord(rec)
    ensures ParseLine(RenderRecord(rec), n, st).0
      == Config(n, st.section, st.sub, rec.key.GetOr(""), rec.value.GetOr(""), rec.disabled.GetOr(false), RenderRecord(rec))
  {
    RenderRecordAsEntry(rec);
    ReparseConfig(Config(0, None, None, rec.key.GetOr(""), rec.value.GetOr(""), rec.disabled.GetOr(false), ""), n, st);
  }

  /** A header record from the front end whose name (missing read as `""`)
      and subsection make a well-formed, stable header renders as one line
      that parses back as a header with that name and flag and the
      normalised subsection. */
  lemma ReparseSectionRecord(rec: Record, n: nat, st: State)
    requires rec.kind == Some("section")
    requires var e := Section(0, rec.section.GetOr(""), rec.subsection, rec.disabled.GetOr(false), "");
      WellFormed(e) && Stable(e)
    ensures '\n' !in RenderRecord(rec)
    ensures var r := ParseLine(RenderRecord(rec), n, st).0;
      && r.Section? && r.name == rec.section.GetOr("") && r.sub == NormSub(rec.subsection)
      && r.disabled == rec.disabled.GetOr(false)
  {
    RenderRecordAsEntry(rec);
    ReparseSection(Section(0, rec.section.GetOr(""), rec.subsection, rec.disabled.GetOr(false), ""), n, st);
  }

  /** Commenting a key/value line out, or back in, changes only the flag:
      the line re-reads as the same key and value. */
  lemma ToggleConfig(e: Entry, n: nat, st: State)
    requires e.Config? && WellFormed(e) && e.key[0] != '#'
    ensures '\n' !in RenderEntry(Config(e.line, e.section, e.sub, e.key, e.value, !e.disabled, e.raw))
    ensures var t := Config(e.line, e.section, e.sub, e.key, e.value, !e.disabled, e.raw);
      ParseLine(RenderEntry(t), n, st).0
        == Config(n, st.section, st.sub, e.key, e.value, !e.disabled, RenderEntry(t))
  {
    ReparseConfig(Config(e.line, e.section, e.sub, e.key, e.value, !e.disabled, e.raw), n, st);
  }

  /** Commenting a header out, or back in, changes only the flag. */
  lemma ToggleSection(e: Entry, n: nat, st: State)
    requires e.Section? && WellFormed(e) && Stable(e)
    ensures var t := Section(e.line, e.name, e.sub, !e.disabled, e.raw);
      var r := ParseLine(RenderEntry(t), n, st).0;
      r.Section? && r.name == e.name && r.sub == NormSub(e.sub) && r.disabled == !e.disabled
  {
    ReparseSection(Section(e.line, e.name, e.sub, !e.disabled, e.raw), n, st);
  }

  // ----- what the parser produces --------------------------------------------

  /** Name and subsection split from a matched header are stripped, free of
      closing brackets and of line breaks, and the name holds no quote. */
  lemma SectionFieldsWellFormed(d: string, content: string)
    requires '\n' !in d && HeaderContent(d) == Some(content)
    ensures var (name, sub) := SplitHeader(content);
      && Stripped(name) && '"' !in name && ']' !in name && '\n' !in name
      && (sub.Some? ==> Stripped(sub.value) && ']' !in sub.value && '\n' !in sub.value)
  {
    assert d[..|content| + 2] == "[" + content + "]";
    assert d[1..|content| + 1] == content;
  }

  /** The key group `d[..k]` is non-empty, holds no whitespace and begins
      with the directive text's first character. */
  lemma MatchedKeyShape(d: string, k: nat)
    requires KeyEndsAt(d, k)
    ensures d[..k] != [] && NoSpace(d[..k]) && d[..k][0] == d[0]
  {
    assert forall i :: 0 <= i < k ==> d[..k][i] == d[i];
  }

  /** The value group, stripped, holds no line break. */
  lemma MatchedValueShape(d: string, k: nat)
    requires '\n' !in d && KeyEndsAt(d, k)
    ensures '\n' !in Strip(d[SkipSpace(d, k) + 1..])
  {
    SuffixSingleLine(d, SkipSpace(d, k) + 1);
    StripSingleLine(d[SkipSpace(d, k) + 1..]);
  }

  /** A closing bracket in the key, past its second character, is one in the
      directive text past its second character. */
  lemma BracketInKey(d: string, key: string, p: nat)
    requires |key| <= |d| && key == d[..|key|] && 2 <= p < |key| && key[p] == ']'
    ensures ']' in d[2..]
  {
    assert d[2..][p - 2] == d[p];
  }

  /** A closing bracket in the stripped value group is one in the directive
      text past its second character. */
  lemma BracketInStripped(d: string, k: nat)
    requires KeyEndsAt(d, k)
    ensures ']' in Strip(d[SkipSpace(d, k) + 1..]) ==> ']' in d[2..]
  {
    var q := SkipSpace(d, k);
    var rest := d[q + 1..];
    if ']' in Strip(rest) {
      StripWithin(rest, ']');
      var m :| 0 <= m < |rest| && rest[m] == ']';
      assert d[2..][q + 1 + m - 2] == ']';
    }
  }

  /** `(\S+)\s*=` with a one-character key leaves blank or `=` in the second
      position. */
  lemma AfterShortKey(d: string, k: nat)
    requires KeyEndsAt(d, k)
    ensures k == 1 ==> d[1] != ']'
  {
    PunctuationIsNotSpace();
    if k == 1 && SkipSpace(d, 1) > 1 {
      assert IsSpace(d[1]);
    }
  }

  /** The rendered key/value text is not taken for a header when the
      directive text it came from was not. */
  lemma RenderedNotHeaderLike(d: string, key: string, value: string)
    requires HeaderContent(d).None?
    requires 1 <= |key| < |d| && key == d[..|key|]
    requires (|key| == 1 ==> d[1] != ']') && (']' in value ==> ']' in d[2..])
    ensures !HeaderLike(key, value)
  {
    if |key| > 1 {
      assert d[1] == key[1];
    }
    if |key| > 2 && ']' in key[2..] {
      var p :| 2 <= p < |key| && key[p] == ']';
      BracketInKey(d, key, p);
    }
  }

  /** A key group of a directive text that is not a header, followed by any
      value that brings no closing bracket of its own, is not taken for a
      header. */
  lemma MatchedNotHeaderLike(d: string, k: nat, value: string)
    requires HeaderContent(d).None? && KeyEndsAt(d, k)
    requires ']' in value ==> ']' in d[2..]
    ensures !HeaderLike(d[..k], value)
  {
    AfterShortKey(d, k);
    RenderedNotHeaderLike(d, d[..k], value);
  }

  /** The rendered text of a parsed key/value entry is never taken for a
      header, since the directive text it came from was not. */
  lemma ConfigNotHeaderLike(d: string, k: nat)
    requires HeaderContent(d).None? && KeyEndsAt(d, k)
    ensures !HeaderLike(d[..k], Strip(d[SkipSpace(d, k) + 1..]))
  {
    BracketInStripped(d, k);
    MatchedNotHeaderLike(d, k, Strip(d[SkipSpace(d, k) + 1..]));
  }

  lemma DirectiveSectionWellFormed(d: string, disabled: bool, line: string, n: nat, st: State)
    requires '\n' !in d && HeaderContent(d).Some?
    ensures WellFormed(ParseDirective(d, disabled, line, n, st).0)
  {
    SectionFieldsWellFormed(d, HeaderContent(d).value);
  }

  lemma ConfigEntryWellFormed(d: string, k: nat, disabled: bool)
    requires '\n' !in d && KeyEndsAt(d, k)
    requires !disabled ==> d[0] != '#'
    requires !HeaderLike(d[..k], Strip(d[SkipSpace(d, k) + 1..]))
    ensures KeyValueFields(d[..k], Strip(d[SkipSpace(d, k) + 1..]), disabled)
  {
    MatchedKeyShape(d, k);
    MatchedValueShape(d, k);
  }

  /** The two groups of a key/value match, in a directive text that holds no
      header, are the fields of a well-formed key/value entry. */
  lemma MatchedFieldsWellFormed(d: string, disabled: bool)
    requires '\n' !in d && HeaderContent(d).None? && MatchKeyValue(d).Some?
    requires !disabled ==> d != [] && d[0] != '#'
    ensures KeyValueFields(MatchKeyValue(d).value.0, MatchKeyValue(d).value.1, disabled)
  {
    var k := |MatchKeyValue(d).value.0|;
    ConfigNotHeaderLike(d, k);
    ConfigEntryWellFormed(d, k, disabled);
  }

  lemma DirectiveConfigWellFormed(d: string, disabled: bool, line: string, n: nat, st: State)
    requires '\n' !in d && HeaderContent(d).None? && MatchKeyValue(d).Some?
    requires !disabled ==> d != [] && d[0] != '#'
    ensures WellFormed(ParseDirective(d, disabled, line, n, st).0)
  {
    MatchedFieldsWellFormed(d, disabled);
  }

  /** The entry read from a single-line directive text is well formed; an
      active one comes from a text not starting with `#`. */
  lemma DirectiveWellFormed(d: string, disabled: bool, line: string, n: nat, st: State)
    requires '\n' !in d && '\n' !in line
    requires !disabled ==> d != [] && d[0] != '#'
    ensures WellFormed(ParseDirective(d, disabled, line, n, st).0)
  {
    if HeaderContent(d).Some? {
      DirectiveSectionWellFormed(d, disabled, line, n, st);
    } else if MatchKeyValue(d).Some? {
      DirectiveConfigWellFormed(d, disabled, line, n, st);
    }
  }

  /** Every entry the parser builds satisfies `WellFormed`. */
  lemma ParsedWellFormed(line: string, n: nat, st: State)
    requires '\n' !in line
    ensures WellFormed(ParseLine(line, n, st).0)
  {
    var s := Strip(line);
    if s != [] && !IsPureComment(s) {
      ParseLineDirective(line, n, st);
      DirectiveWellFormed(Directive(s), s[0] == '#', line, n, st);
    }
  }

  // ----- one line, parsed twice ---------------------------------------------

  /** Whether a line is unknown does not depend on the section state. */
  lemma UnknownAnyState(line: string, n: nat, st1: State, st2: State)
    requires '\n' !in line && ParseLine(line, n, st1).0.Unknown?
    ensures ParseLine(line, n, st2).0 == ParseLine(line, n, st1).0
  {
    ParseLineDirective(line, n, st1);
    ParseLineDirective(line, n, st2);
  }

  /** Re-parsing a rendered line yields an equivalent entry, and the state
      after it is the normalised state after the original, provided the state
      before it was the normalised one. */
  lemma ReparseLine(line: string, n: nat, st1: State, st2: State)
    requires '\n' !in line && st2 == NormState(st1)
    requires Stable(ParseLine(line, n, st1).0)
    ensures var e := ParseLine(line, n, st1).0;
      '\n' !in RenderEntry(e)
    ensures var (e, after) := ParseLine(line, n, st1);
      var r := ParseLine(RenderEntry(e), n, st2);
      Equivalent(e, r.0) && r.1 == NormState(after)
  {
    var e := ParseLine(line, n, st1).0;
    ParsedWellFormed(line, n, st1);
    match e
    case Empty(_, _) =>
      assert RenderEntry(e) == "";
    case Comment(_, _) =>
      assert RenderEntry(e) == line;
    case Unknown(_, _) =>
      assert RenderEntry(e) == line;
      UnknownAnyState(line, n, st1, st2);
    case Section(_, _, _, _, _) =>
      ReparseSection(e, n, st2);
    case Config(_, _, _, _, _, _, _) =>
      ReparseConfig(e, n, st2);
  }

  // ----- a whole file, parsed twice -----------------------------------------

  lemma LinesCons(e: Entry, es: seq<Entry>)
    ensures Lines(Records([e] + es)) == [RenderEntry(e)] + Lines(Records(es))
  {
  }

  lemma ParseFromCons(lines: seq<string>, n: nat, st: State)
    requires |lines| > 0 && forall i :: 0 <= i < |lines| ==> '\n' !in lines[i]
    ensures ParseFrom(lines, n, st)
      == [ParseLine(lines[0], n, st).0] + ParseFrom(lines[1..], n + 1, ParseLine(lines[0], n, st).1)
  {
  }

  lemma StableTail(e: Entry, tail: seq<Entry>)
    requires forall i :: 0 <= i < |tail| + 1 ==> Stable(([e] + tail)[i])
    ensures Stable(e) && forall i :: 0 <= i < |tail| ==> Stable(tail[i])
  {
    assert Stable(([e] + tail)[0]);
    forall i | 0 <= i < |tail|
      ensures Stable(tail[i])
    {
      assert tail[i] == ([e] + tail)[i + 1];
    }
  }

  lemma EquivalentCons(e: Entry, tail: seq<Entry>, e2: Entry, tail2: seq<Entry>)
    requires Equivalent(e, e2) && |tail| == |tail2|
    requires forall i :: 0 <= i < |tail| ==> Equivalent(tail[i], tail2[i])
    ensures forall i :: 0 <= i < |tail| + 1 ==> Equivalent(([e] + tail)[i], ([e2] + tail2)[i])
  {
    forall i | 0 <= i < |tail| + 1
      ensures Equivalent(([e] + tail)[i], ([e2] + tail2)[i])
    {
      if i > 0 {
        assert ([e] + tail)[i] == tail[i - 1] && ([e2] + tail2)[i] == tail2[i - 1];
      }
    }
  }

  lemma SingleLinesCons(l: string, ls: seq<string>)
    requires '\n' !in l && forall i :: 0 <= i < |ls| ==> '\n' !in ls[i]
    ensures forall i :: 0 <= i < |ls| + 1 ==> '\n' !in ([l] + ls)[i]
  {
    forall i | 0 <= i < |ls| + 1
      ensures '\n' !in ([l] + ls)[i]
    {
      if i > 0 {
        assert ([l] + ls)[i] == ls[i - 1];
      }
    }
  }

  /** The loop run over the rendered lines of its own output: the rendered
      lines are single lines, and the entries read back are equivalent to
      the entries they were rendered from, one by one. */
  lemma {:induction false} ReparseFrom(lines: seq<string>, n: nat, st1: State, st2: State)
    requires forall i :: 0 <= i < |lines| ==> '\n' !in lines[i]
    requires st2 == NormState(st1)
    requires forall i :: 0 <= i < |lines| ==> Stable(ParseFrom(lines, n, st1)[i])
    ensures var rs := Lines(Records(ParseFrom(lines, n, st1)));
      && (forall i :: 0 <= i < |rs| ==> '\n' !in rs[i])
      && |ParseFrom(rs, n, st2)| == |lines|
      && forall i :: 0 <= i < |lines| ==> Equivalent(ParseFrom(lines, n, st1)[i], ParseFrom(rs, n, st2)[i])
    decreases |lines|
  {
    if |lines| > 0 {
      var (e, after) := ParseLine(lines[0], n, st1);
      var tail := ParseFrom(lines[1..], n + 1, after);
      ParseFromCons(lines, n, st1);
      StableTail(e, tail);
      ReparseLine(lines[0], n, st1, st2);
      var r := ParseLine(RenderEntry(e), n, st2);
      ReparseFrom(lines[1..], n + 1, after, r.1);
      var rest := Lines(Records(tail));
      LinesCons(e, tail);
      SingleLinesCons(RenderEntry(e), rest);
      var rs := [RenderEntry(e)] + rest;
      assert rs[1..] == rest;
      ParseFromCons(rs, n, st2);
      EquivalentCons(e, tail, r.0, ParseFrom(rest, n + 1, r.1));
    }
  }

  // ----- whole documents ----------------------------------------------------

  /** A well-formed entry renders as a single line. */
  lemma RenderedSingleLine(e: Entry)
    requires WellFormed(e)
    ensures '\n' !in RenderEntry(e)
  {
    match e
    case Section(_, name, sub, _, _) =>
      HeaderInnerExcludes(name, sub, '\n');
      RenderedSection(e);
    case Config(_, _, _, _, _, _, _) =>
      ReparseConfig(e, 0, Initial);
    case _ =>
  }

  lemma {:induction false} ParsedAllWellFormed(lines: seq<string>, n: nat, st: State)
    requires forall i :: 0 <= i < |lines| ==> '\n' !in lines[i]
    ensures forall i :: 0 <= i < |lines| ==> WellFormed(ParseFrom(lines, n, st)[i])
    decreases |lines|
  {
    if |lines| > 0 {
      var (e, after) := ParseLine(lines[0], n, st);
      var tail := ParseFrom(lines[1..], n + 1, after);
      ParseFromCons(lines, n, st);
      ParsedWellFormed(lines[0], n, st);
      ParsedAllWellFormed(lines[1..], n + 1, after);
      forall i | 0 <= i < |lines|
        ensures WellFormed(ParseFrom(lines, n, st)[i])
      {
        if i > 0 {
          assert ParseFrom(lines, n, st)[i] == tail[i - 1];
        }
      }
    }
  }

  /** Rendered well-formed entries split back into one line per entry:
      blank for an empty entry and the raw text for a comment or an unknown
      line. */
  lemma RenderEntriesLines(es: seq<Entry>, lines: seq<string>)
    requires |es| == |lines| >= 1
    requires forall i :: 0 <= i < |es| ==> WellFormed(es[i]) && es[i].raw == lines[i]
    ensures var out := Split(Render(Records(es)));
      && |out| == |lines|
      && forall i :: 0 <= i < |out| ==>
           && (es[i].Empty? ==> out[i] == "")
           && (es[i].Comment? || es[i].Unknown? ==> out[i] == lines[i])
  {
    var recs := Records(es);
    forall i | 0 <= i < |recs|
      ensures '\n' !in RenderRecord(recs[i])
    {
      RenderedSingleLine(es[i]);
    }
  }

  /** Rendering what the parser read gives one line per input line: line
      `i` of the output is blank for a blank line, and is line `i` of the
      input itself for a comment or an unknown line. */
  lemma RenderParsedLines(t: string)
    ensures var out := Split(Render(Records(Parse(t))));
      && |out| == |Split(t)|
      && forall i :: 0 <= i < |out| ==>
           && (Parse(t)[i].Empty? ==> out[i] == "")
           && (Parse(t)[i].Comment? || Parse(t)[i].Unknown? ==> out[i] == Split(t)[i])
  {
    ParsedAllWellFormed(Split(t), 1, Initial);
    RenderEntriesLines(Parse(t), Split(t));
  }
  /** Texts with the same lines are the same text. */
  lemma SplitInjective(a: string, b: string)
    requires Split(a) == Split(b)
    ensures a == b
  {
    JoinSplit(a);
    JoinSplit(b);
  }

  /** A text made only of comments, unknown lines and empty lines is written
      back exactly as it was read. */
  lemma VerbatimRoundTrip(t: string)
    requires forall i :: 0 <= i < |Split(t)| ==>
      Split(t)[i] == "" || Parse(t)[i].Comment? || Parse(t)[i].Unknown?
    ensures Render(Records(Parse(t))) == t
  {
    var out := Render(Records(Parse(t)));
    RenderParsedLines(t);
    ParseClassifies(t);
    forall i | 0 <= i < |Split(t)|
      ensures Split(out)[i] == Split(t)[i]
    {
      if Split(t)[i] == "" {
        assert AllSpace(Split(t)[i]);
      }
    }
    SplitInjective(out, t);
  }

  /** Reading back rendered single lines runs the loop over exactly those
      lines. */
  lemma ParseRendered(es: seq<Entry>)
    requires |es| >= 1
    requires forall i :: 0 <= i < |es| ==> '\n' !in Lines(Records(es))[i]
    ensures Parse(Render(Records(es))) == ParseFrom(Lines(Records(es)), 1, Initial)
  {
    var recs := Records(es);
    assert forall i :: 0 <= i < |recs| ==> RenderRecord(recs[i]) == Lines(recs)[i];
  }

  /** Reading back a rendered document gives the same number of entries,
      each equivalent to the one it was rendered from. */
  lemma Idempotent(t: string)
    requires forall i :: 0 <= i < |Parse(t)| ==> Stable(Parse(t)[i])
    ensures var again := Parse(Render(Records(Parse(t))));
      && |again| == |Parse(t)|
      && forall i :: 0 <= i < |again| ==> Equivalent(Parse(t)[i], again[i])
  {
    assert Parse(t) == ParseFrom(Split(t), 1, Initial);
    ReparseFrom(Split(t), 1, Initial, Initial);
    ParseRendered(Parse(t));
  }

  /** Equivalent entries render to the same line. */
  lemma EquivalentRendersSame(a: Entry, b: Entry)
    requires Equivalent(a, b)
    ensures RenderEntry(a) == RenderEntry(b)
  {
    if a.Section? {
      assert HeaderInner(a.name, NormSub(a.sub)) == HeaderInner(a.name, a.sub);
    }
  }

  /** Rendering is a fixpoint after one round: rendering the re-read
      document gives the same text as the first rendering. */
  lemma RenderFixpoint(t: string)
    requires forall i :: 0 <= i < |Parse(t)| ==> Stable(Parse(t)[i])
    ensures var out := Render(Records(Parse(t)));
      Render(Records(Parse(out))) == out
  {
    var es := Parse(t);
    var out := Render(Records(es));
    var again := Parse(out);
    Idempotent(t);
    forall i | 0 <= i < |es|
      ensures Lines(Records(again))[i] == Lines(Records(es))[i]
    {
      EquivalentRendersSame(es[i], again[i]);
    }
    assert Lines(Records(again)) == Lines(Records(es));
  }
}

=== FILE: serializer.dfy ===
/** The render loop of `write_gitconfig` (app/main.py, lines 230-269) without
    its I/O. It receives loosely typed entry objects from the front end, so it
    is modelled over records whose fields may be missing. */
module Serializer {
  import opened Optional
  import opened Text
  import opened Document

  /** An entry object as `write_gitconfig` receives it: `kind` is its
      `"type"` field, and every field may be missing. */
  datatype Record = Record(
    kind: Option<string>,
    section: Option<string>,
    subsection: Option<string>,
    key: Option<string>,
    value: Option<string>,
    disabled: Option<bool>,
    raw: Option<string>)

  /** Lines 239-242: the text between the brackets of a rendered header,
      `s` or `s "sub"`, the latter when the subsection is present and
      non-empty (Python truthiness). */
  function HeaderInner(section: string, sub: Option<string>): string {
    if sub.Some? && sub.value != "" then section + " \"" + sub.value + "\"" else section
  }

  function HeaderText(section: string, sub: Option<string>): string {
    "[" + HeaderInner(section, sub) + "]"
  }

  /** One iteration of the render loop: missing fields read as `""` or
      `False`, and any type other than empty, section and config is written
      back from its raw text. */
  function RenderRecord(rec: Record): string {
    if rec.kind == Some("empty") then ""
    else if rec.kind == Some("section") then
      var header := HeaderText(rec.section.GetOr(""), rec.subsection);
      if rec.disabled.GetOr(false) then "# " + header else header
    else if rec.kind == Some("config") then
      var body := rec.key.GetOr("") + " = " + rec.value.GetOr("");
      if rec.disabled.GetOr(false) then "    # " + body else "    " + body
    else rec.raw.GetOr("")
  }

  /** The entry object the parser builds for an entry (lines 137-206). */
  function ToRecord(e: Entry): Record {
    match e
    case Empty(_, raw) => Record(Some("empty"), None, None, None, None, None, Some(raw))
    case Comment(_, raw) => Record(Some("comment"), None, None, None, None, None, Some(raw))
    case Section(_, name, sub, disabled, raw) =>
      Record(Some("section"), Some(name), sub, None, None, Some(disabled), Some(raw))
    case Config(_, section, sub, key, value, disabled, raw) =>
      Record(Some("config"), section, sub, Some(key), Some(value), Some(disabled), Some(raw))
    case Unknown(_, raw) => Record(Some("unknown"), None, None, None, None, None, Some(raw))
  }

  function Records(es: seq<Entry>): seq<Record> {
    seq(|es|, i requires 0 <= i < |es| => ToRecord(es[i]))
  }

  /** The line written for a parsed entry. */
  function RenderEntry(e: Entry): string {
    RenderRecord(ToRecord(e))
  }

  /** A record renders as the parsed entry it stands for: a header or
      key/value record as the entry built from its fields, with a missing
      name, key or value read as `""` and a missing flag as `False` (line
      numbers and raw text play no part); an empty record as a blank line;
      and a record of any other type, or of none, as its raw text. */
  lemma RenderRecordAsEntry(rec: Record)
    ensures rec.kind == Some("empty") ==> RenderRecord(rec) == ""
    ensures rec.kind == Some("section") ==>
      RenderRecord(rec) == RenderEntry(Section(0, rec.section.GetOr(""), rec.subsection, rec.disabled.GetOr(false), ""))
    ensures rec.kind == Some("config") ==>
      RenderRecord(rec) == RenderEntry(Config(0, None, None, rec.key.GetOr(""), rec.value.GetOr(""), rec.disabled.GetOr(false), ""))
    ensures rec.kind !in {Some("empty"), Some("section"), Some("config")} ==> RenderRecord(rec) == rec.raw.GetOr("")
  {
  }

  function Lines(recs: seq<Record>): seq<string> {
    seq(|recs|, i requires 0 <= i < |recs| => RenderRecord(recs[i]))
  }

  /** `write_gitconfig` without its I/O: the rendered lines joined with
      `'\n'`. Split at its newlines, the output gives back exactly one line per
      record, in order, as long as no rendered line holds a newline itself. */
  function Render(recs: seq<Record>): (r: string)
    ensures |recs| >= 1 && (forall i :: 0 <= i < |recs| ==> '\n' !in RenderRecord(recs[i]))
            ==> Split(r) == Lines(recs)
  {
    var ls := Lines(recs);
    assert |recs| >= 1 && (forall i :: 0 <= i < |recs| ==> '\n' !in RenderRecord(recs[i]))
           ==> Split(Join(ls)) == ls by {
      if |recs| >= 1 && (forall i :: 0 <= i < |recs| ==> '\n' !in RenderRecord(recs[i])) {
        SplitJoin(ls);
      }
    }
    Join(ls)
  }
}

=== FILE: text.dfy ===
/** String primitives the parser relies on: Python's whitespace class,
    `str.strip`, `str.rstrip(c)`, `str.split('\n')` and `'\n'.join`. */
module Text {

  /** Python's `str.isspace`, which is also the `\s` class of `re` on str
      patterns; `\S` is its complement. One predicate serves `strip`, `\s`
      and `\S` alike. The characters: the ASCII controls `\t` to `\r` and
      U+001C to U+001F, the blank, U+0085, U+00A0, U+1680, U+2000 to U+200A,
      U+2028, U+2029, U+202F, U+205F and U+3000. */
  predicate IsSpace(c: char) {
    || ('\t' <= c <= '\r') || ('\U{1C}' <= c <= ' ')
    || c == '\U{85}' || c == '\U{A0}' || c == '\U{1680}'
    || ('\U{2000}' <= c <= '\U{200A}') || c == '\U{2028}' || c == '\U{2029}'
    || c == '\U{202F}' || c == '\U{205F}' || c == '\U{3000}'
  }

  /** The classes of the characters the grammar is built from. */
  lemma PunctuationIsNotSpace()
    ensures IsSpace(' ')
    ensures !IsSpace('#') && !IsSpace('[') && !IsSpace(']') && !IsSpace('=') && !IsSpace('"')
  {
  }

  /** `s[lo..hi]` is all whitespace. */
  predicate SpaceBetween(s: string, lo: nat, hi: nat)
    requires lo <= hi <= |s|
  {
    forall k :: lo <= k < hi ==> IsSpace(s[k])
  }

  predicate AllSpace(s: string) {
    SpaceBetween(s, 0, |s|)
  }

  /** `s[lo..hi]` holds no whitespace. */
  predicate NoSpaceBetween(s: string, lo: nat, hi: nat)
    requires lo <= hi <= |s|
  {
    forall k :: lo <= k < hi ==> !IsSpace(s[k])
  }

  predicate NoSpace(s: string) {
    NoSpaceBetween(s, 0, |s|)
  }

  /** Text without whitespace holds no line break. */
  lemma NoSpaceNoNewline(s: string)
    requires NoSpace(s)
    ensures '\n' !in s
  {
    forall k | 0 <= k < |s|
      ensures s[k] != '\n'
    {
      assert IsSpace('\n');
    }
  }

  /** A string `strip()` leaves alone: empty, or non-space at both ends. */
  predicate Stripped(s: string) {
    s == [] || (!IsSpace(s[0]) && !IsSpace(s[|s| - 1]))
  }

  /** The first position at or after `i` that does not hold whitespace
      (the `\s*` of a regular expression, which is greedy). */
  function SkipSpace(s: string, i: nat): (j: nat)
    requires i <= |s|
    ensures i <= j <= |s| && SpaceBetween(s, i, j)
    ensures j == |s| || !IsSpace(s[j])
    decreases |s| - i
  {
    if i < |s| && IsSpace(s[i]) then SkipSpace(s, i + 1) else i
  }

  /** The end of `s[lo..j]` once its trailing whitespace is dropped. */
  function BackSpace(s: string, lo: nat, j: nat): (e: nat)
    requires lo <= j <= |s|
    ensures lo <= e <= j && SpaceBetween(s, e, j)
    ensures e == lo || !IsSpace(s[e - 1])
    decreases j - lo
  {
    if lo < j && IsSpace(s[j - 1]) then BackSpace(s, lo, j - 1) else j
  }

  /** Where `str.strip()` starts keeping characters. */
  function StripStart(s: string): (i: nat)
    ensures i <= |s| && SpaceBetween(s, 0, i)
    ensures i == |s| || !IsSpace(s[i])
  {
    SkipSpace(s, 0)
  }

  /** `str.strip()`: the slice of `s` left after removing whitespace at both
      ends; it is empty exactly when `s` is all whitespace. */
  function Strip(s: string): (r: string)
    ensures Stripped(r)
    ensures r == [] <==> AllSpace(s)
  {
    var i := SkipSpace(s, 0);
    var e := BackSpace(s, i, |s|);
    assert e > i ==> s[i..e][0] == s[i] && s[i..e][e - i - 1] == s[e - 1];
    s[i..e]
  }

  /** `strip(s)` is the slice of `s` between its leading and its trailing
      whitespace. */
  lemma StripSlice(s: string)
    ensures StripStart(s) + |Strip(s)| <= |s|
    ensures Strip(s) == s[StripStart(s)..StripStart(s) + |Strip(s)|]
    ensures SpaceBetween(s, StripStart(s) + |Strip(s)|, |s|)
  {
  }

  /** `str.rstrip(c)` for a single character `c`. */
  function RStripChar(s: string, c: char): (r: string)
    ensures |r| <= |s| && r == s[..|r|]
    ensures forall i :: |r| <= i < |s| ==> s[i] == c
    ensures r == [] || r[|r| - 1] != c
  {
    if |s| > 0 && s[|s| - 1] == c then RStripChar(s[..|s| - 1], c) else s
  }

  /** Position of the first occurrence of `c` in `s`. */
  function IndexOf(s: string, c: char): (i: nat)
    requires c in s
    ensures i < |s| && s[i] == c && c !in s[..i]
  {
    if s[0] == c then 0 else 1 + IndexOf(s[1..], c)
  }

  /** The first occurrence of `c` is the only position with `c` and no `c`
      before it. */
  lemma {:induction false} IndexOfUnique(s: string, c: char, j: nat)
    requires j < |s| && s[j] == c && c !in s[..j]
    ensures c in s && IndexOf(s, c) == j
    decreases j
  {
    if j > 0 {
      assert s[0] in s[..j];
      assert s[1..][..j - 1] == s[..j][1..];
      IndexOfUnique(s[1..], c, j - 1);
    }
  }

  /** How many times `c` occurs in `s`. */
  function Occurrences(s: string, c: char): nat {
    if s == [] then 0 else (if s[0] == c then 1 else 0) + Occurrences(s[1..], c)
  }

  lemma {:induction false} OccurrencesConcat(a: string, b: string, c: char)
    ensures Occurrences(a + b, c) == Occurrences(a, c) + Occurrences(b, c)
  {
    if a == [] {
      assert a + b == b;
    } else {
      assert (a + b)[1..] == a[1..] + b;
      OccurrencesConcat(a[1..], b, c);
    }
  }

  lemma {:induction false} OccurrencesAbsent(s: string, c: char)
    requires c !in s
    ensures Occurrences(s, c) == 0
  {
    if s != [] {
      assert forall x :: x in s[1..] ==> x in s;
      OccurrencesAbsent(s[1..], c);
    }
  }

  /** The first line break accounts for one occurrence; the rest lie after it. */
  lemma OccurrencesAfter(s: string, i: nat)
    requires i < |s| && s[i] == '\n' && '\n' !in s[..i]
    ensures Occurrences(s, '\n') == Occurrences(s[i + 1..], '\n') + 1
  {
    var head, rest := s[..i], s[i + 1..];
    assert s == head + (['\n'] + rest);
    OccurrencesConcat(head, ['\n'] + rest, '\n');
    OccurrencesConcat(['\n'], rest, '\n');
    OccurrencesAbsent(head, '\n');
  }

  /** Python's `s.split('\n')`: never empty, one piece per newline plus one. */
  function Split(s: string): (r: seq<string>)
    ensures |r| == Occurrences(s, '\n') + 1
    ensures forall i :: 0 <= i < |r| ==> '\n' !in r[i]
    decreases |s|
  {
    if '\n' in s then
      var i := IndexOf(s, '\n');
      OccurrencesAfter(s, i);
      [s[..i]] + Split(s[i + 1..])
    else
      OccurrencesAbsent(s, '\n');
      [s]
  }

  /** Python's `'\n'.join(ls)`. */
  function Join(ls: seq<string>): string {
    if |ls| == 0 then ""
    else if |ls| == 1 then ls[0]
    else ls[0] + "\n" + Join(ls[1..])
  }

  /** Splitting then joining gives the text back. */
  lemma {:induction false} JoinSplit(s: string)
    ensures Join(Split(s)) == s
    decreases |s|
  {
    if '\n' in s {
      var i := IndexOf(s, '\n');
      JoinSplit(s[i + 1..]);
      assert s == s[..i] + "\n" + s[i + 1..];
    }
  }

  /** Joining newline-free lines then splitting gives the same lines back. */
  lemma {:induction false} SplitJoin(ls: seq<string>)
    requires |ls| >= 1
    requires forall i :: 0 <= i < |ls| ==> '\n' !in ls[i]
    ensures Split(Join(ls)) == ls
    decreases |ls|
  {
    if |ls| > 1 {
      var a, b := ls[0], Join(ls[1..]);
      var s := a + "\n" + b;
      assert Join(ls) == s;
      assert s[..|a|] == a && s[|a| + 1..] == b;
      SplitAt(s, |a|);
      SplitJoin(ls[1..]);
      assert ls == [a] + ls[1..];
    }
  }

  /** Split at the first line break: the piece before it, then the split of
      the rest. */
  lemma SplitAt(s: string, i: nat)
    requires i < |s| && s[i] == '\n' && '\n' !in s[..i]
    ensures Split(s) == [s[..i]] + Split(s[i + 1..])
  {
    IndexOfUnique(s, '\n', i);
    assert '\n' in s && IndexOf(s, '\n') == i;
  }

  /** `\s*` stops at the first non-space: any such `j` is `SkipSpace`'s answer. */
  lemma SkipSpaceAt(s: string, i: nat, j: nat)
    requires i <= j <= |s| && SpaceBetween(s, i, j)
    requires j == |s| || !IsSpace(s[j])
    ensures SkipSpace(s, i) == j
  {
  }

  /** Whitespace added at either end of a stripped string is stripped again. */
  lemma StripPadded(a: string, s: string, b: string)
    requires AllSpace(a) && AllSpace(b) && Stripped(s)
    ensures Strip(a + s + b) == s
  {
    var t := a + s + b;
    if s == [] {
      assert AllSpace(t) by {
        forall k | 0 <= k < |t|
          ensures IsSpace(t[k])
        {
          if k < |a| { assert t[k] == a[k]; } else { assert t[k] == b[k - |a|]; }
        }
      }
    } else {
      assert t[|a|] == s[0];
      SkipSpaceAt(t, 0, |a|);
      var e := BackSpace(t, |a|, |t|);
      assert t[|a| + |s| - 1] == s[|s| - 1];
      assert e == |a| + |s|;
      assert t[|a|..|a| + |s|] == s;
    }
  }

  /** A stripped string is its own `strip()`. */
  lemma StripStripped(s: string)
    requires Stripped(s)
    ensures Strip(s) == s
  {
    StripPadded("", s, "");
    assert "" + s + "" == s;
  }

  /** Every character of `strip(s)` occurs in `s`. */
  lemma StripWithin(s: string, c: char)
    requires c in Strip(s)
    ensures c in s
  {
    var r := Strip(s);
    StripSlice(s);
    var k :| 0 <= k < |r| && r[k] == c;
    assert s[StripStart(s) + k] == c;
  }

  /** A suffix of a single line is a single line. */
  lemma SuffixSingleLine(s: string, i: nat)
    requires '\n' !in s && i <= |s|
    ensures '\n' !in s[i..]
  {
    assert forall k :: 0 <= k < |s[i..]| ==> s[i..][k] == s[i + k];
  }

  /** `strip` of a single line is a single line. */
  lemma StripSingleLine(s: string)
    requires '\n' !in s
    ensures '\n' !in Strip(s)
  {
    if '\n' in Strip(s) {
      StripWithin(s, '\n');
    }
  }
}
